=== FILE: README.md ===
# MindShield core, modelled in Dafny

MindShield is an iOS client that screens for neurological conditions from a short video.
The user records or picks a video of their gait or their hand. The app uploads it as a
`multipart/form-data` POST to one of two prediction servers. It reads a probability and a
diagnosis label out of the JSON answer and shows them on a circular gauge. It can then save
the result, under a patient name, in a history kept in the preference store.

This project models that sequential core as pure Dafny functions over immutable datatypes and
proves properties about it:

| file | module | models |
|---|---|---|
| `wrappers.dfy` | `Wrappers` | `Option` and `Result` |
| `utf8.dfy` | `Utf8` | Swift's `.utf8` view: a UTF-8 encoder, its decoder and the round trip |
| `decimal.dfy` | `Decimal` | decimal text of integers (`"\(n)"`, `String(n)`) and reading it back |
| `json.dfy` | `Json` | the JSON value tree that `JSONSerialization` and `Codable` exchange |
| `api_service.dfy` | `APIService` | `createRequestBody`, the request `upload` builds, its URL and file guards and its reply classification |
| `user_defaults.dfy` | `UserDefaults` | the preference store as a map with the readers `data`, `string` and `integer(forKey:)` |
| `diagnosis_record.dfy` | `DiagnosisRecords` | `DiagnosisRecord` and the JSON shape its synthesized `Codable` gives it |
| `data_manager.dfy` | `DataManager` | the record store: add, clear, save, load, launch, and histories of mutations |
| `result_view_model.dfy` | `DiagnosisResultViewModel` | `saveRecord(with:)`: trimming, the placeholder name, the appended record |
| `circular_progress.dfy` | `CircularProgress` | `updateProgress`: clamp, whole percentage, label, description and colour bands |
| `diagnostic_screen.dfy` | `DiagnosticScreen` | server choice, the picker trigger, reading the answer, result screen or alert |
| `settings.dfy` | `Settings` | the language and theme preferences and their segmented controls |

Code outside the core is a parameter of the functions that call it:
- `URL(string:)` is `parseUrl`.
- `JSONSerialization.jsonObject` is `parseJson`.
- `JSONEncoder`/`JSONDecoder` is a `Codec`.
- The UUID boundary, the current date and the localized "nobody" name are plain values.
- The network's reply (`data`, `response`, `error`) is a `NetworkReply`.
- Reading the video file is a `VideoFile` whose contents may be absent.

Round trips that depend on such a parameter take its faithfulness as a hypothesis:
- `RoundTrips(codec)` says the codec decodes what it encoded.
- `TextRoundTrips(text)` says the JSON text layer parses what it wrote.
- `DataManager.SynthesizedCodecRoundTrips` shows the synthesized `Codable` codec meets `RoundTrips` whenever the text layer meets `TextRoundTrips`.

Localized strings are modelled by their English keys. `Double` and `CGFloat` values are
modelled as `real`.

Two facts about the code worth knowing:
- An unreadable video fails with `URLError(.cannotLoadFromNetwork)` (`UploadError.CannotLoadFromNetwork`).
- The percentage is not clamped when the result screen or a record is created; only the gauge clamps (`DiagnosticScreen.ProbabilityNotClamped`).

## Model

| member | source | states |
|---|---|---|
| APIService.CreateRequestBody | DiagnosticDimentionApp/Common/Network/APIService.swift:64-75 | The body is the opening delimiter line, the disposition line naming the file, the content-type lines, the video bytes verbatim at offset `|Head|`, a line break and the closing delimiter. Its length is `|data| + 2*|utf8(boundary)| + |utf8(filename)| + 98`. |
| APIService.ParseCreateRequestBody | DiagnosticDimentionApp/Common/Network/APIService.swift:64-75 | Stripping the expected head and tail from any built body gives back exactly the video bytes, so the body determines the payload. |
| APIService.DelimitersFrameBody | DiagnosticDimentionApp/Common/Network/APIService.swift:68-73 | The body starts with `--boundary CRLF` and ends with `--boundary-- CRLF`, the delimiters of section 5.1.1 of RFC 2046. |
| APIService.HeadLength | DiagnosticDimentionApp/Common/Network/APIService.swift:68-70 | The part header before the video bytes is 90 bytes plus the encoded boundary and filename. |
| APIService.TailLength | DiagnosticDimentionApp/Common/Network/APIService.swift:72-73 | The bytes after the video are 8 plus the encoded boundary. |
| APIService.BoundaryParameter | DiagnosticDimentionApp/Common/Network/APIService.swift:32 | A boundary read off a Content-Type value is exactly the text after the `multipart/form-data; boundary=` prefix. |
| APIService.BuildRequest | DiagnosticDimentionApp/Common/Network/APIService.swift:29-35 | The request is a POST to the URL. The `Content-Length` header is the canonical decimal text of, and parses to, the exact byte count of the attached body. The `Content-Type` header carries the same boundary that delimits the body. The body parses back to the video bytes. |
| APIService.ClassifyReply | DiagnosticDimentionApp/Common/Network/APIService.swift:37-61 | A transport error wins and is passed on. Otherwise missing data, a non-HTTP response or a status other than 200 gives `BadServerResponse`. Otherwise a JSON object gives success with its fields, other JSON gives `CannotParseResponse`, and a parse error is passed on with the parser's own description. Each outcome comes with an if-and-only-if condition. |
| APIService.Upload | DiagnosticDimentionApp/Common/Network/APIService.swift:10-62 | The completion runs exactly once. A bad URL gives `BadURL`, checked before the file. An unreadable file gives `CannotLoadFromNetwork`. A request is sent if and only if both guards pass, and then it is the built request and the completion is the classified reply. |
| Utf8.DecodeEncode | DiagnosticDimentionApp/Common/Network/APIService.swift:68-73 | Decoding the UTF-8 encoding of any string gives the string back. |
| Utf8.EncodeInjective | DiagnosticDimentionApp/Common/Network/APIService.swift:68-73 | Different strings have different UTF-8 encodings. |
| Utf8.EncodeConcat | DiagnosticDimentionApp/Common/Network/APIService.swift:68-73 | Encoding a concatenation is concatenating the encodings, so the body's pieces can be appended separately. |
| Utf8.EncodeAscii | DiagnosticDimentionApp/Common/Network/APIService.swift:68-73 | An ASCII string encodes to one byte per character, each holding the character's code. |
| Utf8.EncodeScalar | DiagnosticDimentionApp/Common/Network/APIService.swift:68-73 | A character encodes to one to four bytes. It takes one byte exactly when it is below U+0080, and then the byte is the code. Every byte after the first is a continuation byte. |
| Utf8.DecodeEncodeScalar | DiagnosticDimentionApp/Common/Network/APIService.swift:68-73 | Decoding the encoding of any single character gives the character and the number of bytes used. |
| Decimal.ParseNatToString | DiagnosticDimentionApp/Common/Network/APIService.swift:35 | The decimal text written for a byte count reads back as the same count. |
| Decimal.ParseNat | DiagnosticDimentionApp/Common/Network/APIService.swift:35 | A text reads as a natural number exactly when it is non-empty and all digits. |
| Decimal.NatToString | DiagnosticDimentionApp/Common/Network/APIService.swift:35 | The decimal text of a count is non-empty and all digits, with a leading zero only for zero itself. |
| Decimal.IntToString | DiagnosticDimentionApp/Modules/DiagnosisSummaryModule/View/CircularProgressView.swift:118 | The decimal text of an integer starts with a minus sign exactly when the integer is negative. |
| Decimal.ParseIntToString | DiagnosticDimentionApp/Modules/DiagnosisSummaryModule/View/CircularProgressView.swift:118 | The decimal text of any integer reads back as the same integer. |
| DiagnosticScreen.CurrentServerURL | DiagnosticDimentionApp/Modules/DiagnosticModule/View/DiagnosticViewController.swift:92-96 | Segment 0 selects the gait server and only segment 0 does. Every other segment selects the hand server. |
| DiagnosticScreen.ServerUrlsDiffer | DiagnosticDimentionApp/Resources/Constants/Constants.swift:69-70 | The two server addresses are different strings. |
| DiagnosticScreen.DecodeVerdict | DiagnosticDimentionApp/Modules/DiagnosticModule/View/DiagnosticViewController.swift:204-207 | The percentage is the number under `probability` times 100, or 0 if there is no number. The label is the string under `diagnosis`, or "Unknown" if there is no string. Nothing is clamped. |
| DiagnosticScreen.DecodeVerdictFields | DiagnosticDimentionApp/Modules/DiagnosticModule/View/DiagnosticViewController.swift:204-207 | An answer carrying a probability and a diagnosis reads back as that probability scaled by 100 and the same diagnosis, whatever other keys it has. |
| DiagnosticScreen.VerdictDependsOnlyOnKeys | DiagnosticDimentionApp/Modules/DiagnosticModule/View/DiagnosticViewController.swift:204-206 | Two answers that agree on `probability` and `diagnosis` give the same verdict; no other key matters. |
| DiagnosticScreen.ProbabilityNotClamped | DiagnosticDimentionApp/Modules/DiagnosticModule/View/DiagnosticViewController.swift:207 | A worked example of `DecodeVerdict`'s unclamped scaling: a probability of 1.4 is passed on as 140. |
| DiagnosticScreen.HandleOutcome | DiagnosticDimentionApp/Modules/DiagnosticModule/View/DiagnosticViewController.swift:201-217 | Success, and only success, leads to the result screen with the decoded verdict. A failure leads to an alert titled "Video upload error: " whose message is the error's description. |
| DiagnosticScreen.PickerFinished | DiagnosticDimentionApp/Modules/DiagnosticModule/View/DiagnosticViewController.swift:307-323 | An upload starts if and only if the picker's info holds a media URL, and then it goes to the selected server. Otherwise the picker is only dismissed. |
| DiagnosticScreen.Diagnose | DiagnosticDimentionApp/Modules/DiagnosticModule/ViewModel/DiagnosticViewModel.swift:53-67 | A whole diagnosis sends a request exactly when the selected server's URL parses and the video is readable, and then to that URL. The single completion is then the classified reply. It shows the result screen exactly when that completion is a success, and otherwise the alert built from the failure. An unparsable server URL shows the upload-error alert describing `BadURL`. An unreadable video shows it describing `CannotLoadFromNetwork`. |
| DiagnosticScreen.ServerErrorShowsAlert | DiagnosticDimentionApp/Common/Network/APIService.swift:43-48 | A server answering with status 500 leads to the upload error alert for `BadServerResponse`. |
| DiagnosticScreen.AnswerShowsResult | DiagnosticDimentionApp/Modules/DiagnosticModule/View/DiagnosticViewController.swift:202-210 | A status-200 JSON object with a probability and a diagnosis leads to the result screen with the probability times 100 and the diagnosis. |
| DiagnosisRecords.EncodeRecord | DiagnosticDimentionApp/Modules/DiagnosticModule/Model/DiagnosisRecord.swift:7-12 | A record encodes to a JSON object with exactly the four property names as keys. |
| DiagnosisRecords.DecodeRecord | DiagnosticDimentionApp/Modules/DiagnosticModule/Model/DiagnosisRecord.swift:7-12 | A decoded record re-encodes to exactly the record entries of the object it came from. |
| DiagnosisRecords.DecodeByRecordFields | DiagnosticDimentionApp/Modules/DiagnosticModule/Model/DiagnosisRecord.swift:7-12 | Any object whose four record entries are those of a record decodes to that record, so the decoder never fails on a well-formed record. |
| DiagnosisRecords.DecodeIgnoresOtherKeys | DiagnosticDimentionApp/Modules/DiagnosticModule/Model/DiagnosisRecord.swift:7-12 | An encoded record with any extra keys added still decodes to the same record. |
| DiagnosisRecords.DecodeEncodeRecord | DiagnosticDimentionApp/Modules/DiagnosticModule/Model/DiagnosisRecord.swift:7-12 | Decoding an encoded record gives back the same four field values. |
| DiagnosisRecords.EncodeRecords | DiagnosticDimentionApp/Common/Managers/DataManager.swift:28 | An array of records encodes to a JSON array of the same length, element by element in order. |
| DiagnosisRecords.DecodeRecordList | DiagnosticDimentionApp/Common/Managers/DataManager.swift:38 | The array decodes exactly when every element decodes, so one bad element fails the whole array. On success, element i of the result is the decode of element i of the array. |
| DiagnosisRecords.DecodeEncodeRecords | DiagnosticDimentionApp/Common/Managers/DataManager.swift:28-38 | Decoding an encoded array gives back the same records in the same order. |
| DataManager.SynthesizedCodecRoundTrips | DiagnosticDimentionApp/Common/Managers/DataManager.swift:28-38 | The synthesized `Codable` codec decodes what it encoded, given a faithful JSON text layer. |
| DataManager.SaveRecords | DiagnosticDimentionApp/Common/Managers/DataManager.swift:26-33 | The records are untouched. If encoding succeeds, the slot under "diagnosisResultsKey" holds the encoding of the whole array. If it fails, the preferences are unchanged. No other key changes. |
| DataManager.AddRecord | DiagnosticDimentionApp/Common/Managers/DataManager.swift:16-19 | The length grows by one, the record is last and the earlier records are unchanged. The slot is current whenever encoding succeeds, and is otherwise left alone. |
| DataManager.ClearRecords | DiagnosticDimentionApp/Common/Managers/DataManager.swift:21-24 | The history is empty. The slot holds the encoding of the empty array whenever that encoding succeeds. |
| DataManager.ClearIdempotent | DiagnosticDimentionApp/Common/Managers/DataManager.swift:21-24 | Clearing twice leaves the same store as clearing once. |
| DataManager.LoadRecords | DiagnosticDimentionApp/Common/Managers/DataManager.swift:35-42 | With no data under the key, or data that does not decode, the records stay as they were. Otherwise they become the decoded array. The preferences are not touched. |
| DataManager.Launch | DiagnosticDimentionApp/Common/Managers/DataManager.swift:8-12 | A fresh store starts empty and loads. With no stored data, or data that does not decode, the history is empty. Stored data that decodes becomes the history. |
| DataManager.ReloadPersisted | DiagnosticDimentionApp/Common/Managers/DataManager.swift:26-42 | With a round-tripping codec, a store whose slot is current reloads to the same ordered records. |
| DataManager.LaunchAfterAdd | DiagnosticDimentionApp/Common/Managers/DataManager.swift:16-19 | After adding a record, a relaunch gives the old records followed by the new one. |
| DataManager.LaunchAfterClear | DiagnosticDimentionApp/Common/Managers/DataManager.swift:21-24 | After clearing, a relaunch gives an empty history. |
| DataManager.LastClear | DiagnosticDimentionApp/Common/Managers/DataManager.swift:21-24 | Finds the position of the last clear in a history of mutations; every later mutation is an add. |
| DataManager.ApplyAllResults | DiagnosticDimentionApp/Common/Managers/DataManager.swift:12-24 | After any sequence of adds and clears, the records are those added since the last clear. If there was no clear, they are the starting records followed by everything added. |
| DataManager.ApplyAllPersists | DiagnosticDimentionApp/Common/Managers/DataManager.swift:12-42 | With a round-tripping codec that can encode the final records, after any non-empty sequence of mutations the slot is current and a relaunch reproduces the records in memory. |
| DiagnosisResultViewModel.TrimStart | DiagnosticDimentionApp/Modules/DiagnosisSummaryModule/ViewModel/DiagnosisResultViewModel.swift:23 | The result is a suffix of the input, everything dropped is whitespace or a newline, and the result does not start with one. |
| DiagnosisResultViewModel.TrimEnd | DiagnosticDimentionApp/Modules/DiagnosisSummaryModule/ViewModel/DiagnosisResultViewModel.swift:23 | The result is a prefix of the input, everything dropped is whitespace or a newline, and the result does not end with one. |
| DiagnosisResultViewModel.TrimIsTrimOf | DiagnosticDimentionApp/Modules/DiagnosisSummaryModule/ViewModel/DiagnosisResultViewModel.swift:23 | The trimmed name is a slice of the input with only whitespace and newlines cut from both ends, and nothing of that kind left at either end. |
| DiagnosisResultViewModel.TrimUnpadded | DiagnosticDimentionApp/Modules/DiagnosisSummaryModule/ViewModel/DiagnosisResultViewModel.swift:23 | The trimmed name neither starts nor ends with whitespace or a newline. |
| DiagnosisResultViewModel.TrimOfIsUnique | DiagnosticDimentionApp/Modules/DiagnosisSummaryModule/ViewModel/DiagnosisResultViewModel.swift:23 | Any slice with that property is the trimmed name, so trimming is characterized independently of how it is computed. |
| DiagnosisResultViewModel.TrimIdempotent | DiagnosticDimentionApp/Modules/DiagnosisSummaryModule/ViewModel/DiagnosisResultViewModel.swift:23-24 | Trimming a trimmed name changes nothing. |
| DiagnosisResultViewModel.FinalName | DiagnosticDimentionApp/Modules/DiagnosisSummaryModule/ViewModel/DiagnosisResultViewModel.swift:23-24 | The saved name is the trimmed input when that is not empty, and the placeholder when it is. |
| DiagnosisResultViewModel.BlankNameGetsPlaceholder | DiagnosticDimentionApp/Modules/DiagnosisSummaryModule/ViewModel/DiagnosisResultViewModel.swift:24 | A name of only whitespace and newlines, the empty name included, is saved as the placeholder. |
| DiagnosisResultViewModel.TrimmedNameKept | DiagnosticDimentionApp/Modules/DiagnosisSummaryModule/ViewModel/DiagnosisResultViewModel.swift:23-24 | A non-empty name with no whitespace at either end is saved exactly as typed. |
| DiagnosisResultViewModel.SaveRecord | DiagnosticDimentionApp/Modules/DiagnosisSummaryModule/ViewModel/DiagnosisResultViewModel.swift:22-32 | Exactly one record is appended and the earlier ones are unchanged. It carries the final name, the current date, and the view model's probability and diagnosis copied unchanged. The store is saved as `addRecord` saves it: when the records encode, the slot holds their encoding; otherwise the preferences are unchanged. No other key changes. |
| CircularProgress.Clamp | DiagnosticDimentionApp/Modules/DiagnosisSummaryModule/View/CircularProgressView.swift:114 | The clamped progress lies in [0, 1]. It equals the input inside that range, 0 below it and 1 above it. |
| CircularProgress.Truncate | DiagnosticDimentionApp/Modules/DiagnosisSummaryModule/View/CircularProgressView.swift:115 | `Int(x)` rounds toward zero: the floor for non-negative values, the ceiling for negative ones. |
| CircularProgress.Band | DiagnosticDimentionApp/Modules/DiagnosisSummaryModule/View/CircularProgressView.swift:131-160 | Every percentage, negative ones included, falls in one of the five bands. |
| CircularProgress.SameBand | DiagnosticDimentionApp/Modules/DiagnosisSummaryModule/View/CircularProgressView.swift:131-160 | For every integer, the description and the colour come from the same band of the two five-entry tables. |
| CircularProgress.BandMonotone | DiagnosticDimentionApp/Modules/DiagnosisSummaryModule/View/CircularProgressView.swift:131-144 | From 0 upward, a higher percentage never falls in a lower band. |
| CircularProgress.PercentageLabel | DiagnosticDimentionApp/Modules/DiagnosisSummaryModule/View/CircularProgressView.swift:118 | The label is at least two characters long and ends with the percent sign. |
| CircularProgress.ParsePercentageLabelRoundTrip | DiagnosticDimentionApp/Modules/DiagnosisSummaryModule/View/CircularProgressView.swift:118 | The label reads back as the percentage it shows. |
| CircularProgress.UpdateProgress | DiagnosticDimentionApp/Modules/DiagnosisSummaryModule/View/CircularProgressView.swift:113-127 | The stroke end is the clamped progress for every input, in range or not. The percentage is the whole part of 100 times it, in 0..100. The label is the canonical decimal text of the percentage followed by `%`, and it reads back as the percentage. The description and colour are that percentage's band. |
| CircularProgress.GaugeForProbability | DiagnosticDimentionApp/Modules/DiagnosisSummaryModule/View/DiagnosisSummaryViewController.swift:114 | A stored probability on the 0 to 100 scale shows as its whole part. Above 100 it shows 100, "Very High" in red. Below 0 it shows 0, "Very Low" in blue. |
| UserDefaults.DataFor | DiagnosticDimentionApp/Common/Managers/DataManager.swift:36 | Bytes are found exactly when the key holds data. |
| UserDefaults.StringFor | DiagnosticDimentionApp/Modules/DiagnosticModule/View/SettingsViewController.swift:30 | A string is found exactly when the key holds a string or a number. |
| UserDefaults.ReadYourWrites | DiagnosticDimentionApp/Common/Managers/DataManager.swift:29 | What is written under a key is what the matching reader returns for it. |
| UserDefaults.OtherKeysUnchanged | DiagnosticDimentionApp/Common/Managers/DataManager.swift:29 | A write under one key leaves every reader of every other key unchanged. |
| Settings.FirstIndex | DiagnosticDimentionApp/Modules/DiagnosticModule/View/SettingsViewController.swift:31 | `firstIndex(of:)` gives a position holding the value with no earlier match, or nothing exactly when the value is absent. |
| Settings.InitialLanguageIndex | DiagnosticDimentionApp/Modules/DiagnosticModule/View/SettingsViewController.swift:28-40 | The language control starts at 0 when no code is saved or the saved code is unknown. Otherwise it starts at the saved code's position. It is always a valid segment. |
| Settings.LanguageChanged | DiagnosticDimentionApp/Modules/DiagnosticModule/View/SettingsViewController.swift:157-164 | Selecting segment i stores `languageCodes[i]` under "selectedLanguageIndex" and changes no other key. |
| Settings.LanguageRoundTrip | DiagnosticDimentionApp/Modules/DiagnosticModule/View/SettingsViewController.swift:28-40 | After selecting segment i, a rebuilt language control starts at i again. |
| Settings.StyleFor | DiagnosticDimentionApp/Modules/DiagnosticModule/View/SettingsViewController.swift:177 | Segment 0 is the light style, and it is the only segment that is. |
| Settings.ThemeChanged | DiagnosticDimentionApp/Modules/DiagnosticModule/View/SettingsViewController.swift:172-179 | The selected index is stored under "selectedThemeIndex" and no other key changes. A style is applied exactly when the view has a window, and it is the segment's style. |
| Settings.InitialThemeIndex | DiagnosticDimentionApp/Modules/DiagnosticModule/View/SettingsViewController.swift:52-57 | The theme control starts at the stored integer, or at 0 when nothing is stored. |
| Settings.ThemeRoundTrip | DiagnosticDimentionApp/Modules/DiagnosticModule/View/SettingsViewController.swift:52-57 | After selecting a theme segment, a rebuilt theme control starts at the same segment. |

## Left out

- UIKit layout, fonts, colours as `UIColor`, background images, the loading screen and the stroke animation have no contract beyond the values modelled. `CircularProgress.Color` names the five colours.
- URLSession, `DispatchQueue.main.async` and `resume()` are transport and threading. The reply is an input, and the completion's single call is modelled as a one-element sequence.
- The boundary is a parameter, because `UUID()` is random. The code neither checks that the boundary is absent from the video bytes nor escapes quotes in the filename, so the model claims neither.
- `URL(string:)`, `Data(contentsOf:)`, `lastPathComponent`, `JSONSerialization` and the JSON text format are foreign code. They are parameters or given values, and JSON text is never parsed.
- `localizedDescription` is a parameter (`describe`). `.localized()` and `LocalizationService`, including `setLanguage` in `languageChanged`, are string tables and reactive glue.
- Coordinators, builders and the RxSwift drivers of the view models are navigation and presentation wiring.
- The training module and `HistoryTableViewCell` are outside the core.
- `Double` is `real`, with no rounding, NaN or infinity. `Int(clamped * 100)` truncates exactly here, whereas in binary floating point a value such as 0.29 * 100 can truncate to 28. JSONEncoder's failure on non-finite numbers cannot arise.
- `as? Double` is modelled as accepting a JSON number only. Foundation's bridging of a JSON boolean to a `Double` is not modelled.
- `Date` is a `real` count of seconds, and the date-encoding strategy is the default one.
- UserDefaults.IntegerFor: reads a stored string as a plain decimal integer. Foundation's more lenient reading of strings (leading spaces, a plus sign, trailing text) is not modelled.
- Settings.LanguageChanged: requires a selected index below 3, because `languageChanged` indexes `languageCodes` with it and would trap otherwise.
- The selected segment is read when the picker finishes. A segment change between that moment and the upload is not modelled.
- `DataManager.diagnosisResults` being `private(set)` is modelled by the store being an immutable value that only the store functions replace.

=== FILE: api_service.dfy ===
/**
 * The upload client: the `multipart/form-data` request body (section 4 of RFC 7578,
 * delimiters as in section 5.1.1 of RFC 2046), the request that carries it, and the
 * ordered classification of what the network returns.
 */
module APIService {
  import opened Wrappers
  import opened Utf8
  import opened Json
  import Decimal

  const CRLF: string := "\r\n"
  const MimeType: string := "video/mp4"
  const ContentTypePrefix: string := "multipart/form-data; boundary="

  /** The first part header line; the filename is inserted unescaped, as `createRequestBody` does. */
  function DispositionLine(filename: string): string {
    DispositionName + (DispositionParameters + (filename + (Quote + CRLF)))
  }

  const DispositionName: string := "Content-Disposition: "
  const DispositionParameters: string := "form-data; name=\"video\"; filename=\""
  const Quote: string := "\""

  /** The second part header line and the blank line that ends the part headers. */
  const ContentTypeLines: string := "Content-Type: " + MimeType + CRLF + CRLF

  /** Everything in the body before the video bytes. */
  function Head(boundary: string, filename: string): Bytes {
    Encode("--" + boundary + CRLF) + Encode(DispositionLine(filename)) + Encode(ContentTypeLines)
  }

  /** Everything in the body after the video bytes: the line break and the close delimiter. */
  function Tail(boundary: string): Bytes {
    Encode(CRLF) + Encode("--" + boundary + "--" + CRLF)
  }

  /** Bytes of fixed text in every body: all of it but the boundary (twice), the filename and the data. */
  const FixedBodyLength: nat := 98

  lemma AsciiLength(s: string)
    requires IsAscii(s)
    ensures |Encode(s)| == |s|
  {
    EncodeAscii(s);
  }

  // One lemma per piece of fixed text keeps each literal's encoding out of the other proofs.

  lemma DashesAscii()
    ensures IsAscii("--")
  {
  }

  lemma DashesLength()
    ensures |Encode("--")| == 2
  {
    DashesAscii();
    AsciiLength("--");
  }

  lemma CrlfAscii()
    ensures IsAscii(CRLF)
  {
  }

  lemma CrlfLength()
    ensures |Encode(CRLF)| == 2
  {
    CrlfAscii();
    AsciiLength(CRLF);
  }

  lemma DashesCrlfAscii()
    ensures IsAscii("--" + CRLF)
  {
  }

  lemma DashesCrlfLength()
    ensures |Encode("--" + CRLF)| == 4
  {
    DashesCrlfAscii();
    AsciiLength("--" + CRLF);
  }

  lemma DispositionNameAscii()
    ensures IsAscii(DispositionName)
  {
  }

  lemma DispositionNameLength()
    ensures |Encode(DispositionName)| == 21
  {
    DispositionNameAscii();
    AsciiLength(DispositionName);
  }

  lemma DispositionParametersAscii()
    ensures IsAscii(DispositionParameters)
  {
  }

  lemma DispositionParametersLength()
    ensures |Encode(DispositionParameters)| == 35
  {
    DispositionParametersAscii();
    AsciiLength(DispositionParameters);
  }

  lemma ContentTypeLinesAscii()
    ensures IsAscii(ContentTypeLines)
  {
  }

  lemma ContentTypeLinesLength()
    ensures |Encode(ContentTypeLines)| == 27
  {
    ContentTypeLinesAscii();
    AsciiLength(ContentTypeLines);
  }

  lemma HeadLength(boundary: string, filename: string)
    ensures |Head(boundary, filename)| == |Encode(boundary)| + |Encode(filename)| + 90
  {
    OpenLineLength(boundary);
    DispositionLineLength(filename);
    ContentTypeLinesLength();
  }

  lemma OpenLineLength(boundary: string)
    ensures |Encode("--" + boundary + CRLF)| == |Encode(boundary)| + 4
  {
    DashesLength();
    CrlfLength();
    EncodeConcat("--" + boundary, CRLF);
    EncodeConcat("--", boundary);
  }

  lemma DispositionLineLength(filename: string)
    ensures |Encode(DispositionLine(filename))| == |Encode(filename)| + 59
  {
    DispositionNameLength();
    DispositionParametersLength();
    QuoteCrlfLength();
    ConcatLength(DispositionName, DispositionParameters, filename, Quote + CRLF);
  }

  lemma ConcatLength(a: string, b: string, c: string, d: string)
    ensures |Encode(a + (b + (c + d)))| == |Encode(a)| + |Encode(b)| + |Encode(c)| + |Encode(d)|
  {
    EncodeConcat(c, d);
    EncodeConcat(b, c + d);
    EncodeConcat(a, b + (c + d));
  }

  lemma QuoteCrlfAscii()
    ensures IsAscii(Quote + CRLF)
  {
  }

  lemma QuoteCrlfLength()
    ensures |Encode(Quote + CRLF)| == 3
  {
    QuoteCrlfAscii();
    AsciiLength(Quote + CRLF);
  }

  lemma TailLength(boundary: string)
    ensures |Tail(boundary)| == |Encode(boundary)| + 8
  {
    DashesLength();
    DashesCrlfLength();
    CrlfLength();
    assert "--" + boundary + "--" + CRLF == "--" + boundary + ("--" + CRLF);
    EncodeConcat("--" + boundary, "--" + CRLF);
    EncodeConcat("--", boundary);
  }

  /**
   * The request body: open delimiter, the two part headers, a blank line, the video
   * bytes, and the close delimiter, appended in that order.
   */
  function CreateRequestBody(videoData: Bytes, filename: string, boundary: string): (body: Bytes)
    ensures body == Head(boundary, filename) + videoData + Tail(boundary)
    ensures var offset := |Head(boundary, filename)|;
      body[offset..offset + |videoData|] == videoData
    ensures |body| == |videoData| + 2 * |Encode(boundary)| + |Encode(filename)| + FixedBodyLength
  {
    var body :=
      Encode("--" + boundary + CRLF)
      + Encode(DispositionLine(filename))
      + Encode(ContentTypeLines)
      + videoData
      + Encode(CRLF)
      + Encode("--" + boundary + "--" + CRLF);
    assert body == Head(boundary, filename) + videoData + Tail(boundary);
    HeadLength(boundary, filename);
    TailLength(boundary);
    body
  }

  /**
   * Reads back the single part of a body built with the given boundary and filename:
   * the bytes between the head and the close delimiter, or `None` if the body does not have that frame.
   */
  function ParseSinglePart(body: Bytes, boundary: string, filename: string): (r: Option<Bytes>)
    ensures r.Some? ==> body == Head(boundary, filename) + r.value + Tail(boundary)
  {
    var head := Head(boundary, filename);
    var tail := Tail(boundary);
    if |body| >= |head| + |tail| && body[..|head|] == head && body[|body| - |tail|..] == tail then
      var data := body[|head|..|body| - |tail|];
      assert body == head + data + tail;
      Some(data)
    else
      None
  }

  /** Building a body and reading it back recovers the video bytes exactly. */
  lemma ParseCreateRequestBody(videoData: Bytes, filename: string, boundary: string)
    ensures ParseSinglePart(CreateRequestBody(videoData, filename, boundary), boundary, filename) == Some(videoData)
  {
    var body := CreateRequestBody(videoData, filename, boundary);
    var head := Head(boundary, filename);
    var tail := Tail(boundary);
    assert body[..|head|] == head;
    assert body[|body| - |tail|..] == tail;
    assert body[|head|..|body| - |tail|] == videoData;
  }

  /** A parsed server address, the result of `URL(string:)`. */
  datatype Url = Url(absoluteString: string)

  datatype Request = Request(url: Url, httpMethod: string, headers: map<string, string>, body: Bytes)

  /** The boundary parameter of a `multipart/form-data` Content-Type value. */
  function BoundaryParameter(contentType: string): (r: Option<string>)
    ensures r.Some? ==> contentType == ContentTypePrefix + r.value
  {
    if |contentType| >= |ContentTypePrefix| && contentType[..|ContentTypePrefix|] == ContentTypePrefix then
      var boundary := contentType[|ContentTypePrefix|..];
      assert contentType == ContentTypePrefix + boundary;
      Some(boundary)
    else
      None
  }

  /** The POST request: Content-Type names the boundary, Content-Length counts the body attached. */
  function BuildRequest(url: Url, videoData: Bytes, filename: string, boundary: string): (request: Request)
    ensures request.url == url && request.httpMethod == "POST"
    ensures request.headers.Keys == {"Content-Type", "Content-Length"}
    ensures Decimal.ParseNat(request.headers["Content-Length"]) == Some(|request.body|)
    ensures request.headers["Content-Length"] == Decimal.NatToString(|request.body|)
    ensures BoundaryParameter(request.headers["Content-Type"]) == Some(boundary)
    ensures var open := Encode("--" + boundary + CRLF);
      |open| <= |request.body| && request.body[..|open|] == open
    ensures var close := Encode("--" + boundary + "--" + CRLF);
      |close| <= |request.body| && request.body[|request.body| - |close|..] == close
    ensures ParseSinglePart(request.body, boundary, filename) == Some(videoData)
  {
    var body := CreateRequestBody(videoData, filename, boundary);
    var contentType := ContentTypePrefix + boundary;
    var request := Request(url, "POST", map["Content-Type" := contentType, "Content-Length" := Decimal.NatToString(|body|)], body);
    Decimal.ParseNatToString(|body|);
    assert contentType[..|ContentTypePrefix|] == ContentTypePrefix;
    assert contentType[|ContentTypePrefix|..] == boundary;
    DelimitersFrameBody(videoData, filename, boundary);
    ParseCreateRequestBody(videoData, filename, boundary);
    request
  }

  /** The body opens with the dash-boundary line and ends with the close-delimiter line. */
  lemma DelimitersFrameBody(videoData: Bytes, filename: string, boundary: string)
    ensures var body := CreateRequestBody(videoData, filename, boundary);
      var open := Encode("--" + boundary + CRLF);
      var close := Encode("--" + boundary + "--" + CRLF);
      |open| + |close| <= |body| && body[..|open|] == open && body[|body| - |close|..] == close
  {
    Framed(Encode("--" + boundary + CRLF), Encode(DispositionLine(filename)), Encode(ContentTypeLines),
      videoData, Encode(CRLF), Encode("--" + boundary + "--" + CRLF));
  }

  /** A body assembled from six pieces starts with the first and ends with the last. */
  lemma Framed(open: Bytes, disposition: Bytes, contentType: Bytes, data: Bytes, lineBreak: Bytes, close: Bytes)
    ensures var whole := (open + disposition + contentType) + data + (lineBreak + close);
      |open| + |close| <= |whole| && whole[..|open|] == open && whole[|whole| - |close|..] == close
  {
    var whole := (open + disposition + contentType) + data + (lineBreak + close);
    assert whole == open + (disposition + contentType + data + lineBreak) + close;
  }

  // ----- The reply and its classification -----

  /** What `URLSession` hands back: a non-HTTP response is possible for non-HTTP schemes. */
  datatype UrlResponse = HttpResponse(statusCode: int) | OtherResponse

  /** The three optional values of a data task's completion handler. */
  datatype NetworkReply = NetworkReply(data: Option<Bytes>, response: Option<UrlResponse>, error: Option<string>)

  /** What `JSONSerialization.jsonObject(with:)` yields: a value, or the error it throws. */
  datatype JsonParse = Parsed(value: JsonValue) | ParseError(description: string)

  /** The failures an upload reports, each carrying what `upload` passes to its completion. */
  datatype UploadError =
    | BadURL                          // URLError(.badURL)
    | CannotLoadFromNetwork           // URLError(.cannotLoadFromNetwork): the video file could not be read
    | BadServerResponse               // URLError(.badServerResponse)
    | CannotParseResponse             // URLError(.cannotParseResponse): valid JSON, but not an object
    | Transport(description: string)  // the data task's own error, passed on
    | Serialization(description: string)  // the error thrown by the JSON parser, passed on

  type JsonFields = map<string, JsonValue>
  type Outcome = Result<JsonFields, UploadError>

  /** Data is present, the response is HTTP and the status is exactly 200. */
  predicate IsOkHttp(reply: NetworkReply) {
    reply.data.Some? && reply.response == Some(HttpResponse(200))
  }

  /**
   * Classifies a reply in the order `upload`'s data task checks it: a transport error first, then a missing body,
   * a non-HTTP response or a status other than 200, then the JSON.
   */
  function ClassifyReply(reply: NetworkReply, parseJson: Bytes -> JsonParse): (r: Outcome)
    ensures reply.error.Some? ==> r == Failure(Transport(reply.error.value))
    ensures reply.error.None? && !IsOkHttp(reply) ==> r == Failure(BadServerResponse)
    ensures r.Success? <==>
      reply.error.None? && IsOkHttp(reply)
      && parseJson(reply.data.value).Parsed? && parseJson(reply.data.value).value.Object?
    ensures r.Success? ==> r.value == parseJson(reply.data.value).value.fields
    ensures r == Failure(CannotParseResponse) <==>
      reply.error.None? && IsOkHttp(reply)
      && parseJson(reply.data.value).Parsed? && !parseJson(reply.data.value).value.Object?
    ensures r.Failure? && r.error.Serialization? <==>
      reply.error.None? && IsOkHttp(reply) && parseJson(reply.data.value).ParseError?
    ensures r.Failure? && r.error.Serialization? ==>
      IsOkHttp(reply) && parseJson(reply.data.value) == ParseError(r.error.description)
  {
    if reply.error.Some? then
      Failure(Transport(reply.error.value))
    else if reply.data.None? || reply.response.None? || !reply.response.value.HttpResponse?
      || reply.response.value.statusCode != 200 then
      Failure(BadServerResponse)
    else
      match parseJson(reply.data.value)
      case ParseError(description) => Failure(Serialization(description))
      case Parsed(value) =>
        if value.Object? then Success(value.fields) else Failure(CannotParseResponse)
  }

  /** The video the picker handed over: its file name and its contents, if they could be read. */
  datatype VideoFile = VideoFile(lastPathComponent: string, contents: Option<Bytes>)

  /** One call of `upload`: the request it sent, if any, and every value passed to its completion. */
  datatype UploadRun = UploadRun(sent: Option<Request>, completions: seq<Outcome>)

  /**
   * One upload. `parseUrl` stands for `URL(string:)`, `boundary` for the fresh UUID string,
   * `reply` for what the network delivers if a request goes out, `parseJson` for the JSON parser.
   */
  function Upload(
    serverURL: string, parseUrl: string -> Option<Url>, video: VideoFile, boundary: string,
    reply: NetworkReply, parseJson: Bytes -> JsonParse
  ): (run: UploadRun)
    ensures |run.completions| == 1
    ensures run.sent.Some? <==> parseUrl(serverURL).Some? && video.contents.Some?
    ensures parseUrl(serverURL).None? ==> run.completions == [Failure(BadURL)]
    ensures parseUrl(serverURL).Some? && video.contents.None? ==>
      run.completions == [Failure(CannotLoadFromNetwork)]
    ensures run.sent.Some? ==>
      && run.sent.value == BuildRequest(parseUrl(serverURL).value, video.contents.value, video.lastPathComponent, boundary)
      && run.completions == [ClassifyReply(reply, parseJson)]
  {
    match parseUrl(serverURL)
    case None => UploadRun(None, [Failure(BadURL)])
    case Some(url) =>
      match video.contents
      case None => UploadRun(None, [Failure(CannotLoadFromNetwork)])
      case Some(videoData) =>
        var request := BuildRequest(url, videoData, video.lastPathComponent, boundary);
        UploadRun(Some(request), [ClassifyReply(reply, parseJson)])
  }
}

=== FILE: circular_progress.dfy ===
/**
 * The circular result gauge: the progress is clamped into [0, 1], shown as a whole
 * percentage, and the percentage picks one of five description and colour bands.
 */
module CircularProgress {
  import opened Wrappers
  import Decimal

  const VeryLow: string := "Very Low"
  const Low: string := "Low"
  const Middle: string := "Middle"
  const High: string := "High"
  const VeryHigh: string := "Very High"
  const PercentSymbol: string := "%"

  datatype Color = Blue | Green | Yellow | Orange | Red

  /** The descriptions and colours, lowest band first. */
  const Descriptions: seq<string> := [VeryLow, Low, Middle, High, VeryHigh]
  const Colors: seq<Color> := [Blue, Green, Yellow, Orange, Red]

  function Min(a: real, b: real): real {
    if a <= b then a else b
  }

  function Max(a: real, b: real): real {
    if a >= b then a else b
  }

  /** `max(0, min(progress, 1))`. */
  function Clamp(progress: real): (c: real)
    ensures 0.0 <= c <= 1.0
    ensures 0.0 <= progress <= 1.0 ==> c == progress
    ensures progress < 0.0 ==> c == 0.0
    ensures progress > 1.0 ==> c == 1.0
  {
    Max(0.0, Min(progress, 1.0))
  }

  /** `Int(x)`: rounds toward zero. */
  function Truncate(x: real): (n: int)
    ensures x >= 0.0 ==> n as real <= x < n as real + 1.0
    ensures x < 0.0 ==> n as real - 1.0 < x <= n as real
  {
    if x >= 0.0 then x.Floor else -((-x).Floor)
  }

  /** `getProbabilityDescription(for:)`. */
  function ProbabilityDescription(percentage: int): string {
    if 0 <= percentage <= 20 then VeryLow
    else if 21 <= percentage <= 40 then Low
    else if 41 <= percentage <= 60 then Middle
    else if 61 <= percentage <= 80 then High
    else VeryHigh
  }

  /** `getProgressColor(for:)`. */
  function ProgressColor(percentage: int): Color {
    if 0 <= percentage <= 20 then Blue
    else if 21 <= percentage <= 40 then Green
    else if 41 <= percentage <= 60 then Yellow
    else if 61 <= percentage <= 80 then Orange
    else Red
  }

  /**
   * The band of a percentage, counted as one less than the number of whole twenties it
   * reaches (rounding up), capped at the top band; negative values land in the top band.
   */
  function Band(percentage: int): (b: nat)
    ensures b < 5
  {
    if percentage < 0 then 4
    else
      var twenties := (percentage + 19) / 20;
      if twenties == 0 then 0 else if twenties > 5 then 4 else twenties - 1
  }

  /** Description and colour always come from the same band. */
  lemma SameBand(percentage: int)
    ensures ProbabilityDescription(percentage) == Descriptions[Band(percentage)]
    ensures ProgressColor(percentage) == Colors[Band(percentage)]
  {
  }

  /** Higher percentages never fall in a lower band, from 0 upward. */
  lemma BandMonotone(p: int, q: int)
    requires 0 <= p <= q
    ensures Band(p) <= Band(q)
  {
  }

  /** The label text: the percentage in decimal followed by the percent sign. */
  function PercentageLabel(percentage: int): (text: string)
    ensures |text| >= 2 && text[|text| - 1] == '%'
  {
    Decimal.IntToString(percentage) + PercentSymbol
  }

  /** Reads the percentage back off a label. */
  function ParsePercentageLabel(text: string): Option<int> {
    if |text| >= 1 && text[|text| - 1] == '%' then Decimal.ParseInt(text[..|text| - 1]) else None
  }

  lemma ParsePercentageLabelRoundTrip(percentage: int)
    ensures ParsePercentageLabel(PercentageLabel(percentage)) == Some(percentage)
  {
    var text := PercentageLabel(percentage);
    assert text[..|text| - 1] == Decimal.IntToString(percentage);
    Decimal.ParseIntToString(percentage);
  }

  /** What the gauge shows after `updateProgress`. */
  datatype Display = Display(strokeEnd: real, percentage: int, labelText: string, description: string, color: Color)

  /** `updateProgress()`, without the animation. */
  function UpdateProgress(progress: real): (d: Display)
    ensures 0.0 <= d.strokeEnd <= 1.0 && 0 <= d.percentage <= 100
    ensures d.percentage as real <= d.strokeEnd * 100.0 < d.percentage as real + 1.0
    ensures 0.0 <= progress <= 1.0 ==> d.strokeEnd == progress
    ensures d.strokeEnd == Clamp(progress)
    ensures d.description == Descriptions[Band(d.percentage)] && d.color == Colors[Band(d.percentage)]
    ensures d.labelText == PercentageLabel(d.percentage)
    ensures ParsePercentageLabel(d.labelText) == Some(d.percentage)
  {
    var clamped := Clamp(progress);
    var percentage := Truncate(clamped * 100.0);
    SameBand(percentage);
    ParsePercentageLabelRoundTrip(percentage);
    Display(clamped, percentage, PercentageLabel(percentage), ProbabilityDescription(percentage), ProgressColor(percentage))
  }

  /** The result screen feeds the gauge a record-scale probability divided by 100. */
  function SummaryProgress(probability: real): real {
    probability / 100.0
  }

  /**
   * From a stored probability on the 0 to 100 scale to the gauge: the percentage shown is the
   * whole part of the probability, capped to [0, 100].
   */
  lemma GaugeForProbability(probability: real)
    ensures var d := UpdateProgress(SummaryProgress(probability));
      && (0.0 <= probability <= 100.0 ==> d.percentage == probability.Floor)
      && (probability > 100.0 ==> d.percentage == 100 && d.description == VeryHigh && d.color == Red)
      && (probability < 0.0 ==> d.percentage == 0 && d.description == VeryLow && d.color == Blue)
  {
    var d := UpdateProgress(SummaryProgress(probability));
    if 0.0 <= probability <= 100.0 {
      assert Clamp(SummaryProgress(probability)) * 100.0 == probability;
    }
  }
}

=== FILE: data_manager.dfy ===
/**
 * The record store: the in-memory history of diagnosis records and the one preference
 * slot that every mutation overwrites with the encoding of the whole history.
 */
module DataManager {
  import opened Wrappers
  import opened Utf8
  import opened Json
  import opened UserDefaults
  import opened DiagnosisRecords

  const DiagnosisResultsKey: string := "diagnosisResultsKey"

  /** `JSONEncoder().encode` and `JSONDecoder().decode` for a record array; either may fail. */
  datatype Codec = Codec(
    encode: seq<DiagnosisRecord> -> Option<Bytes>,
    decode: Bytes -> Option<seq<DiagnosisRecord>>)

  /** Whatever the codec manages to encode, it decodes back to the same records. */
  ghost predicate RoundTrips(codec: Codec) {
    forall rs :: codec.encode(rs).Some? ==> codec.decode(codec.encode(rs).value) == Some(rs)
  }

  /** The text layer of JSON: writing a value to bytes and parsing bytes back. */
  datatype JsonText = JsonText(write: JsonValue -> Option<Bytes>, read: Bytes -> Option<JsonValue>)

  ghost predicate TextRoundTrips(text: JsonText) {
    forall v :: text.write(v).Some? ==> text.read(text.write(v).value) == Some(v)
  }

  /** The codec the synthesized `Codable` conformance gives: the record array's JSON value, as text. */
  function SynthesizedCodec(text: JsonText): Codec {
    Codec(
      rs => text.write(EncodeRecords(rs)),
      bytes => match text.read(bytes) case None => None case Some(v) => DecodeRecords(v))
  }

  /** A faithful JSON text layer makes the synthesized codec round-trip. */
  lemma SynthesizedCodecRoundTrips(text: JsonText)
    requires TextRoundTrips(text)
    ensures RoundTrips(SynthesizedCodec(text))
  {
    var codec := SynthesizedCodec(text);
    forall rs | codec.encode(rs).Some?
      ensures codec.decode(codec.encode(rs).value) == Some(rs)
    {
      assert text.read(text.write(EncodeRecords(rs)).value) == Some(EncodeRecords(rs));
      DecodeEncodeRecords(rs);
    }
  }

  /** The store: the records (readable by anyone, replaced only by the operations below) and the preferences. */
  datatype Store = Store(diagnosisResults: seq<DiagnosisRecord>, defaults: Defaults)

  /** The slot holds exactly the encoding of the current records. */
  predicate Persisted(s: Store, codec: Codec) {
    codec.encode(s.diagnosisResults).Some? && DataFor(s.defaults, DiagnosisResultsKey) == codec.encode(s.diagnosisResults)
  }

  /** Keys other than the records' slot hold what they held. */
  predicate OtherKeysKept(before: Defaults, after: Defaults) {
    after - {DiagnosisResultsKey} == before - {DiagnosisResultsKey}
  }

  /**
   * Writes the whole record array to the slot. If encoding fails the failure is only logged:
   * the slot keeps its old contents.
   */
  function SaveRecords(s: Store, codec: Codec): (t: Store)
    ensures t.diagnosisResults == s.diagnosisResults
    ensures codec.encode(s.diagnosisResults).Some? ==> Persisted(t, codec)
    ensures codec.encode(s.diagnosisResults).None? ==> t.defaults == s.defaults
    ensures OtherKeysKept(s.defaults, t.defaults)
  {
    match codec.encode(s.diagnosisResults)
    case Some(data) => Store(s.diagnosisResults, s.defaults[DiagnosisResultsKey := DataValue(data)])
    case None => s
  }

  /** Appends a record and saves. */
  function AddRecord(s: Store, record: DiagnosisRecord, codec: Codec): (t: Store)
    ensures |t.diagnosisResults| == |s.diagnosisResults| + 1
    ensures t.diagnosisResults[|s.diagnosisResults|] == record
    ensures t.diagnosisResults[..|s.diagnosisResults|] == s.diagnosisResults
    ensures codec.encode(t.diagnosisResults).Some? ==> Persisted(t, codec)
    ensures codec.encode(t.diagnosisResults).None? ==> t.defaults == s.defaults
    ensures OtherKeysKept(s.defaults, t.defaults)
  {
    SaveRecords(Store(s.diagnosisResults + [record], s.defaults), codec)
  }

  /** Empties the history and saves. */
  function ClearRecords(s: Store, codec: Codec): (t: Store)
    ensures t.diagnosisResults == []
    ensures codec.encode([]).Some? ==> Persisted(t, codec)
    ensures codec.encode([]).None? ==> t.defaults == s.defaults
    ensures OtherKeysKept(s.defaults, t.defaults)
  {
    SaveRecords(Store([], s.defaults), codec)
  }

  /**
   * Replaces the records with the decoded slot. No data, or data that does not decode,
   * leaves the records as they were; the failure is only logged.
   */
  function LoadRecords(s: Store, codec: Codec): (t: Store)
    ensures t.defaults == s.defaults
    ensures DataFor(s.defaults, DiagnosisResultsKey).None? ==> t.diagnosisResults == s.diagnosisResults
    ensures DataFor(s.defaults, DiagnosisResultsKey).Some? ==>
      var decoded := codec.decode(DataFor(s.defaults, DiagnosisResultsKey).value);
      t.diagnosisResults == if decoded.Some? then decoded.value else s.diagnosisResults
  {
    match DataFor(s.defaults, DiagnosisResultsKey)
    case None => s
    case Some(data) =>
      match codec.decode(data)
      case Some(records) => Store(records, s.defaults)
      case None => s
  }

  /** The shared store as it is created: empty, then loaded. */
  function Launch(defaults: Defaults, codec: Codec): (t: Store)
    ensures t.defaults == defaults
    ensures DataFor(defaults, DiagnosisResultsKey).None? ==> t.diagnosisResults == []
    ensures (DataFor(defaults, DiagnosisResultsKey).Some?
      && codec.decode(DataFor(defaults, DiagnosisResultsKey).value).None?) ==> t.diagnosisResults == []
    ensures (DataFor(defaults, DiagnosisResultsKey).Some?
      && codec.decode(DataFor(defaults, DiagnosisResultsKey).value).Some?) ==>
      t.diagnosisResults == codec.decode(DataFor(defaults, DiagnosisResultsKey).value).value
  {
    LoadRecords(Store([], defaults), codec)
  }

  /** A store whose slot is current reloads to the same records. */
  lemma ReloadPersisted(s: Store, codec: Codec)
    requires RoundTrips(codec)
    requires Persisted(s, codec)
    ensures Launch(s.defaults, codec).diagnosisResults == s.diagnosisResults
  {
  }

  /** Adding a record and relaunching gives the old records followed by the new one. */
  lemma LaunchAfterAdd(s: Store, record: DiagnosisRecord, codec: Codec)
    requires RoundTrips(codec)
    requires codec.encode(s.diagnosisResults + [record]).Some?
    ensures var reloaded := Launch(AddRecord(s, record, codec).defaults, codec).diagnosisResults;
      reloaded == s.diagnosisResults + [record]
      && |reloaded| == |s.diagnosisResults| + 1 && reloaded[|reloaded| - 1] == record
  {
    var t := AddRecord(s, record, codec);
    assert t.diagnosisResults == s.diagnosisResults + [record];
    ReloadPersisted(t, codec);
  }

  /** Clearing and relaunching gives an empty history. */
  lemma LaunchAfterClear(s: Store, codec: Codec)
    requires RoundTrips(codec)
    requires codec.encode([]).Some?
    ensures Launch(ClearRecords(s, codec).defaults, codec).diagnosisResults == []
  {
    ReloadPersisted(ClearRecords(s, codec), codec);
  }

  /** Clearing twice is clearing once. */
  lemma ClearIdempotent(s: Store, codec: Codec)
    ensures ClearRecords(ClearRecords(s, codec), codec) == ClearRecords(s, codec)
  {
  }

  // ----- Sequences of mutations -----

  datatype Mutation = Add(record: DiagnosisRecord) | Clear

  function Apply(s: Store, m: Mutation, codec: Codec): Store {
    match m
    case Add(record) => AddRecord(s, record, codec)
    case Clear => ClearRecords(s, codec)
  }

  /** The store after the mutations, in order. */
  function ApplyAll(s: Store, ms: seq<Mutation>, codec: Codec): Store
    decreases |ms|
  {
    if ms == [] then s else Apply(ApplyAll(s, ms[..|ms| - 1], codec), ms[|ms| - 1], codec)
  }

  /** The records the `Add` mutations carry, in order. */
  function Added(ms: seq<Mutation>): seq<DiagnosisRecord> {
    if ms == [] then []
    else (if ms[0].Add? then [ms[0].record] else []) + Added(ms[1..])
  }

  /** The position of the last `Clear`, if there is one. */
  function LastClear(ms: seq<Mutation>): (r: Option<nat>)
    ensures r.Some? ==> r.value < |ms| && ms[r.value].Clear?
    ensures r.Some? ==> forall j :: r.value < j < |ms| ==> ms[j].Add?
    ensures r.None? ==> forall j :: 0 <= j < |ms| ==> ms[j].Add?
    decreases |ms|
  {
    if ms == [] then None
    else if ms[|ms| - 1].Clear? then Some(|ms| - 1)
    else LastClear(ms[..|ms| - 1])
  }

  /** The records a history ends with: those added after the last clear, or else everything from the start. */
  function Expected(initial: seq<DiagnosisRecord>, ms: seq<Mutation>): seq<DiagnosisRecord> {
    match LastClear(ms)
    case None => initial + Added(ms)
    case Some(i) => Added(ms[i + 1..])
  }

  lemma {:induction false} AddedSnoc(ms: seq<Mutation>, m: Mutation)
    ensures Added(ms + [m]) == Added(ms) + (if m.Add? then [m.record] else [])
  {
    if ms == [] {
      assert [m][1..] == [];
    } else {
      assert (ms + [m])[1..] == ms[1..] + [m];
      AddedSnoc(ms[1..], m);
    }
  }

  /** The records after any mutations are those the history predicts; the store changes only through them. */
  lemma {:induction false} ApplyAllResults(s: Store, ms: seq<Mutation>, codec: Codec)
    ensures ApplyAll(s, ms, codec).diagnosisResults == Expected(s.diagnosisResults, ms)
    decreases |ms|
  {
    if ms != [] {
      var front, last := ms[..|ms| - 1], ms[|ms| - 1];
      assert ms == front + [last];
      ApplyAllResults(s, front, codec);
      if last.Add? {
        AddedSnoc(front, last);
        match LastClear(front)
        case None =>
        case Some(i) =>
          assert ms[i + 1..] == front[i + 1..] + [last];
          AddedSnoc(front[i + 1..], last);
      } else {
        assert ms[|ms|..] == [];
      }
    }
  }

  /**
   * When the final records encode, after at least one mutation the slot is current and reloads
   * to the records in memory.
   */
  lemma {:induction false} ApplyAllPersists(s: Store, ms: seq<Mutation>, codec: Codec)
    requires RoundTrips(codec)
    requires codec.encode(ApplyAll(s, ms, codec).diagnosisResults).Some?
    requires ms != []
    ensures Persisted(ApplyAll(s, ms, codec), codec)
    ensures Launch(ApplyAll(s, ms, codec).defaults, codec).diagnosisResults == ApplyAll(s, ms, codec).diagnosisResults
  {
    var t := ApplyAll(s, ms, codec);
    assert Persisted(t, codec) by {
      var before := ApplyAll(s, ms[..|ms| - 1], codec);
      assert t == Apply(before, ms[|ms| - 1], codec);
      assert codec.encode(t.diagnosisResults).Some?;
    }
    ReloadPersisted(t, codec);
  }
}

=== FILE: decimal.dfy ===
/**
 * Decimal text of integers, as Swift's `String(n)` and string interpolation `"\(n)"` write it:
 * digits only, no leading zero except for zero itself, a leading '-' for negatives.
 */
module Decimal {
  import opened Wrappers

  predicate IsDigit(c: char) {
    '0' <= c <= '9'
  }

  predicate AllDigits(s: string) {
    forall i :: 0 <= i < |s| ==> IsDigit(s[i])
  }

  function DigitChar(d: int): (c: char)
    requires 0 <= d < 10
    ensures IsDigit(c)
  {
    (48 + d) as char
  }

  function DigitValue(c: char): (d: nat)
    requires IsDigit(c)
    ensures d < 10
  {
    c as int - 48
  }

  /** Canonical decimal text of a natural number. */
  function NatToString(n: nat): (s: string)
    ensures |s| >= 1 && AllDigits(s)
    ensures s[0] == '0' ==> n == 0 && s == "0"
    decreases n
  {
    if n < 10 then [DigitChar(n)] else NatToString(n / 10) + [DigitChar(n % 10)]
  }

  /** The number a non-empty run of decimal digits denotes. */
  function DigitsValue(s: string): nat
    requires AllDigits(s)
  {
    if s == [] then 0 else DigitsValue(s[..|s| - 1]) * 10 + DigitValue(s[|s| - 1])
  }

  /** Reads a decimal natural number; anything but one or more digits is refused. */
  function ParseNat(s: string): (r: Option<nat>)
    ensures r.Some? <==> |s| >= 1 && AllDigits(s)
  {
    if |s| >= 1 && AllDigits(s) then Some(DigitsValue(s)) else None
  }

  /** Printing then reading a natural number gives it back. */
  lemma {:induction false} ParseNatToString(n: nat)
    ensures ParseNat(NatToString(n)) == Some(n)
    decreases n
  {
    var s := NatToString(n);
    if n >= 10 {
      ParseNatToString(n / 10);
      assert s[..|s| - 1] == NatToString(n / 10);
      assert DigitValue(s[|s| - 1]) == n % 10;
    } else {
      assert s == [DigitChar(n)];
      assert s[..0] == [];
      assert DigitValue(s[0]) == n;
      assert DigitsValue(s) == DigitsValue(s[..0]) * 10 + DigitValue(s[0]);
    }
  }

  /** Decimal text of any integer. */
  function IntToString(i: int): (s: string)
    ensures |s| >= 1
    ensures s[0] == '-' <==> i < 0
  {
    if i < 0 then "-" + NatToString(-i) else NatToString(i)
  }

  /** Reads an optionally negative decimal integer. */
  function ParseInt(s: string): Option<int> {
    var negative := |s| >= 1 && s[0] == '-';
    match ParseNat(if negative then s[1..] else s)
    case None => None
    case Some(n) =>
      if negative && n == 0 then None
      else Some(if negative then -(n as int) else n as int)
  }

  /** Printing then reading an integer gives it back. */
  lemma ParseIntToString(i: int)
    ensures ParseInt(IntToString(i)) == Some(i)
  {
    if i < 0 {
      ParseNatToString(-i);
      assert IntToString(i)[1..] == NatToString(-i);
    } else {
      ParseNatToString(i);
    }
  }
}

=== FILE: diagnosis_record.dfy ===
/**
 * The diagnosis record and the JSON shape its synthesized `Codable` conformance gives it:
 * one object per record keyed by the four property names, dates as seconds since the
 * reference date (the default `deferredToDate` strategy).
 */
module DiagnosisRecords {
  import opened Wrappers
  import opened Json

  /**
   * One saved result. All four properties are constants, so a record never changes once made;
   * `probability` is whatever the caller passed, not confined to [0, 100].
   */
  datatype DiagnosisRecord = DiagnosisRecord(
    patientName: string,
    date: real,          // seconds since 2001-01-01 00:00 UTC, as `Date` holds it
    probability: real,
    diagnosis: string)

  const PatientNameKey: string := "patientName"
  const DateKey: string := "date"
  const ProbabilityKey: string := "probability"
  const DiagnosisKey: string := "diagnosis"

  /** The keyed container a record encodes to. */
  function EncodeRecord(r: DiagnosisRecord): (v: JsonValue)
    ensures v.Object? && v.fields.Keys == RecordKeys
  {
    Object(map[
      PatientNameKey := Str(r.patientName),
      DateKey := Number(r.date),
      ProbabilityKey := Number(r.probability),
      DiagnosisKey := Str(r.diagnosis)])
  }

  const RecordKeys: set<string> := {PatientNameKey, DateKey, ProbabilityKey, DiagnosisKey}

  /** The entries of an object that belong to a record. */
  function RecordFields(fields: map<string, JsonValue>): map<string, JsonValue> {
    map k | k in fields && k in RecordKeys :: fields[k]
  }

  /** Reads a record back: an object with the four keys at the right types; other keys are ignored. */
  function DecodeRecord(v: JsonValue): (r: Option<DiagnosisRecord>)
    ensures r.Some? ==> v.Object? && EncodeRecord(r.value).fields == RecordFields(v.fields)
  {
    if v.Object?
      && PatientNameKey in v.fields && v.fields[PatientNameKey].Str?
      && DateKey in v.fields && v.fields[DateKey].Number?
      && ProbabilityKey in v.fields && v.fields[ProbabilityKey].Number?
      && DiagnosisKey in v.fields && v.fields[DiagnosisKey].Str?
    then
      Some(DiagnosisRecord(
        v.fields[PatientNameKey].s, v.fields[DateKey].n, v.fields[ProbabilityKey].n, v.fields[DiagnosisKey].s))
    else
      None
  }

  /**
   * An object whose record entries are those of `rec` decodes to `rec`, whatever other keys it
   * carries: together with the contract of `DecodeRecord`, the four entries decide the decode.
   */
  lemma DecodeByRecordFields(v: JsonValue, rec: DiagnosisRecord)
    requires v.Object? && RecordFields(v.fields) == EncodeRecord(rec).fields
    ensures DecodeRecord(v) == Some(rec)
  {
    var f := EncodeRecord(rec).fields;
    assert f[PatientNameKey] == Str(rec.patientName) && f[DateKey] == Number(rec.date);
    assert f[ProbabilityKey] == Number(rec.probability) && f[DiagnosisKey] == Str(rec.diagnosis);
    assert PatientNameKey in RecordFields(v.fields) && DateKey in RecordFields(v.fields);
    assert ProbabilityKey in RecordFields(v.fields) && DiagnosisKey in RecordFields(v.fields);
  }

  /** Keys beside the four record keys are ignored when a stored record is read back. */
  lemma DecodeIgnoresOtherKeys(rec: DiagnosisRecord, extra: map<string, JsonValue>)
    ensures DecodeRecord(Object(extra + EncodeRecord(rec).fields)) == Some(rec)
  {
    var fields := extra + EncodeRecord(rec).fields;
    assert RecordFields(fields) == EncodeRecord(rec).fields;
    DecodeByRecordFields(Object(fields), rec);
  }

  /** Decoding an encoded record gives back the same four field values. */
  lemma DecodeEncodeRecord(r: DiagnosisRecord)
    ensures DecodeRecord(EncodeRecord(r)) == Some(r)
  {
  }

  /** An array of records encodes element by element, in order. */
  function EncodeRecords(rs: seq<DiagnosisRecord>): (v: JsonValue)
    ensures v.Array? && |v.items| == |rs|
    ensures forall i :: 0 <= i < |rs| ==> v.items[i] == EncodeRecord(rs[i])
  {
    Array(seq(|rs|, i requires 0 <= i < |rs| => EncodeRecord(rs[i])))
  }

  /** Decodes every element of an array; one bad element fails the whole decode. */
  function DecodeRecordList(items: seq<JsonValue>): (r: Option<seq<DiagnosisRecord>>)
    ensures r.Some? <==> forall i :: 0 <= i < |items| ==> DecodeRecord(items[i]).Some?
    ensures r.Some? ==> |r.value| == |items|
    ensures r.Some? ==> forall i :: 0 <= i < |items| ==> DecodeRecord(items[i]) == Some(r.value[i])
  {
    if items == [] then Some([])
    else
      match DecodeRecord(items[0])
      case None => None
      case Some(first) =>
        match DecodeRecordList(items[1..])
        case None => None
        case Some(rest) => Some([first] + rest)
  }

  function DecodeRecords(v: JsonValue): Option<seq<DiagnosisRecord>> {
    if v.Array? then DecodeRecordList(v.items) else None
  }

  /** Decoding an encoded array gives back the same records in the same order. */
  lemma DecodeEncodeRecords(rs: seq<DiagnosisRecord>)
    ensures DecodeRecords(EncodeRecords(rs)) == Some(rs)
  {
    DecodeEncodeRecordList(rs);
  }

  lemma {:induction false} DecodeEncodeRecordList(rs: seq<DiagnosisRecord>)
    ensures DecodeRecordList(EncodeRecords(rs).items) == Some(rs)
  {
    if rs != [] {
      var items := EncodeRecords(rs).items;
      DecodeEncodeRecord(rs[0]);
      assert items[1..] == EncodeRecords(rs[1..]).items;
      DecodeEncodeRecordList(rs[1..]);
      assert [rs[0]] + rs[1..] == rs;
    }
  }
}

=== FILE: diagnostic_screen.dfy ===
/**
 * The diagnostic screen: which server a video goes to, what happens when the picker
 * finishes, and how the upload's outcome becomes either the result screen or an alert.
 */
module DiagnosticScreen {
  import opened Wrappers
  import opened Json
  import opened Utf8
  import opened APIService

  // Each address is written in pieces only so that the verifier can look at its characters.
  const HandServerURL: string := "https://neuroalz" + "-api-719509516996" + ".us-central1.run.app/predict"
  const GaitServerURL: string := "https://my-flask" + "-app-608127581259" + ".us-central1.run.app/predict"

  const ProbabilityKey: string := "probability"
  const DiagnosisKey: string := "diagnosis"
  const UnknownDiagnosis: string := "Unknown"
  const UploadErrorMessage: string := "Video upload error: "

  lemma ServerUrlsDiffer()
    ensures GaitServerURL != HandServerURL
  {
    assert GaitServerURL[8] == 'm' && HandServerURL[8] == 'n';
  }

  /** `currentServerURL`: segment 0 is gait analysis, any other segment hand analysis. */
  function CurrentServerURL(selectedSegment: int): (url: string)
    ensures url == GaitServerURL <==> selectedSegment == 0
    ensures url == HandServerURL <==> selectedSegment != 0
  {
    ServerUrlsDiffer();
    if selectedSegment == 0 then GaitServerURL else HandServerURL
  }

  /** What the result screen is shown with: a percentage and the diagnosis text. */
  datatype Verdict = Verdict(percentage: real, diagnosis: string)

  /**
   * The success handler's reading of the server's fields: a number under "probability"
   * scaled by 100 (0 when there is none), the string under "diagnosis" ("Unknown" when
   * there is none). Nothing is clamped here.
   */
  function DecodeVerdict(response: JsonFields): (v: Verdict)
    ensures ProbabilityKey in response && response[ProbabilityKey].Number? ==>
      v.percentage == response[ProbabilityKey].n * 100.0
    ensures !(ProbabilityKey in response && response[ProbabilityKey].Number?) ==> v.percentage == 0.0
    ensures DiagnosisKey in response && response[DiagnosisKey].Str? ==> v.diagnosis == response[DiagnosisKey].s
    ensures !(DiagnosisKey in response && response[DiagnosisKey].Str?) ==> v.diagnosis == UnknownDiagnosis
  {
    var rawProb := if ProbabilityKey in response && response[ProbabilityKey].Number? then response[ProbabilityKey].n else 0.0;
    var diagnosis := if DiagnosisKey in response && response[DiagnosisKey].Str? then response[DiagnosisKey].s else UnknownDiagnosis;
    Verdict(rawProb * 100.0, diagnosis)
  }

  /** The fields a server answer of this shape carries. */
  function VerdictFields(probability: real, diagnosis: string): JsonFields {
    map[ProbabilityKey := Number(probability), DiagnosisKey := Str(diagnosis)]
  }

  /** Reading an answer back gives the probability as a percentage and the diagnosis unchanged. */
  lemma DecodeVerdictFields(probability: real, diagnosis: string, extra: JsonFields)
    ensures DecodeVerdict(extra + VerdictFields(probability, diagnosis)) == Verdict(probability * 100.0, diagnosis)
  {
    assert ProbabilityKey != DiagnosisKey;
  }

  /** Only the two keys matter: answers that agree on them give the same verdict. */
  lemma VerdictDependsOnlyOnKeys(a: JsonFields, b: JsonFields)
    requires (ProbabilityKey in a <==> ProbabilityKey in b) && (DiagnosisKey in a <==> DiagnosisKey in b)
    requires ProbabilityKey in a ==> a[ProbabilityKey] == b[ProbabilityKey]
    requires DiagnosisKey in a ==> a[DiagnosisKey] == b[DiagnosisKey]
    ensures DecodeVerdict(a) == DecodeVerdict(b)
  {
  }

  /** What the screen presents after an upload finishes. */
  datatype Presented =
    | ResultScreen(verdict: Verdict)
    | ErrorAlert(title: string, message: string)

  /**
   * The upload callbacks: success shows the result screen, failure an alert titled with the
   * upload error message whose text is the error's description (`describe`, which stands
   * for `localizedDescription`). Neither path saves anything.
   */
  function HandleOutcome(outcome: Outcome, describe: UploadError -> string): (p: Presented)
    ensures p.ResultScreen? <==> outcome.Success?
    ensures outcome.Success? ==> p.verdict == DecodeVerdict(outcome.value)
    ensures outcome.Failure? ==> p == ErrorAlert(UploadErrorMessage, describe(outcome.error))
  {
    match outcome
    case Success(response) => ResultScreen(DecodeVerdict(response))
    case Failure(error) => ErrorAlert(UploadErrorMessage, describe(error))
  }

  /** The picker's `info` values this screen distinguishes: a file URL or anything else. */
  datatype PickedValue = MediaUrl(url: Url) | OtherValue

  const MediaUrlKey: string := "UIImagePickerControllerMediaURL"

  /** What the screen does when the picker finishes. */
  datatype PickerAction = Dismiss | DismissAndUpload(videoURL: Url, serverURL: string)

  /** `imagePickerController(_:didFinishPickingMediaWithInfo:)`. */
  function PickerFinished(info: map<string, PickedValue>, selectedSegment: int): (a: PickerAction)
    ensures a.DismissAndUpload? <==> MediaUrlKey in info && info[MediaUrlKey].MediaUrl?
    ensures a.DismissAndUpload? ==>
      a.videoURL == info[MediaUrlKey].url && a.serverURL == CurrentServerURL(selectedSegment)
  {
    if MediaUrlKey in info && info[MediaUrlKey].MediaUrl? then
      DismissAndUpload(info[MediaUrlKey].url, CurrentServerURL(selectedSegment))
    else
      Dismiss
  }

  /**
   * A whole diagnosis from a picked video: the upload to the selected server and what the
   * screen then presents.
   */
  function Diagnose(
    selectedSegment: int, parseUrl: string -> Option<Url>, video: VideoFile, boundary: string,
    reply: NetworkReply, parseJson: Bytes -> JsonParse, describe: UploadError -> string
  ): (r: (UploadRun, Presented))
    ensures |r.0.completions| == 1
    ensures r.0.sent.Some? ==>
      parseUrl(CurrentServerURL(selectedSegment)).Some?
      && r.0.sent.value.url == parseUrl(CurrentServerURL(selectedSegment)).value
    ensures r.0.sent.Some? <==> parseUrl(CurrentServerURL(selectedSegment)).Some? && video.contents.Some?
    ensures r.0.sent.Some? ==> r.0.completions == [ClassifyReply(reply, parseJson)]
    ensures parseUrl(CurrentServerURL(selectedSegment)).None? ==>
      r.1 == ErrorAlert(UploadErrorMessage, describe(BadURL))
    ensures parseUrl(CurrentServerURL(selectedSegment)).Some? && video.contents.None? ==>
      r.1 == ErrorAlert(UploadErrorMessage, describe(CannotLoadFromNetwork))
    ensures r.1.ResultScreen? <==> r.0.completions[0].Success?
    ensures r.1 == HandleOutcome(r.0.completions[0], describe)
  {
    var run := Upload(CurrentServerURL(selectedSegment), parseUrl, video, boundary, reply, parseJson);
    (run, HandleOutcome(run.completions[0], describe))
  }

  /** A server that answers with status 500 leads to the upload error alert. */
  lemma ServerErrorShowsAlert(
    selectedSegment: int, parseUrl: string -> Option<Url>, video: VideoFile, boundary: string,
    body: Bytes, parseJson: Bytes -> JsonParse, describe: UploadError -> string
  )
    requires parseUrl(CurrentServerURL(selectedSegment)).Some? && video.contents.Some?
    ensures var r := Diagnose(selectedSegment, parseUrl, video, boundary,
                              NetworkReply(Some(body), Some(HttpResponse(500)), None), parseJson, describe);
      r.0.sent.Some? && r.1 == ErrorAlert(UploadErrorMessage, describe(BadServerResponse))
  {
  }

  /** A well-formed answer with status 200 leads to the result screen with the scaled probability. */
  lemma AnswerShowsResult(
    selectedSegment: int, parseUrl: string -> Option<Url>, video: VideoFile, boundary: string,
    body: Bytes, parseJson: Bytes -> JsonParse, describe: UploadError -> string,
    probability: real, diagnosis: string
  )
    requires parseUrl(CurrentServerURL(selectedSegment)).Some? && video.contents.Some?
    requires parseJson(body) == Parsed(Object(VerdictFields(probability, diagnosis)))
    ensures var r := Diagnose(selectedSegment, parseUrl, video, boundary,
                              NetworkReply(Some(body), Some(HttpResponse(200)), None), parseJson, describe);
      r.1 == ResultScreen(Verdict(probability * 100.0, diagnosis))
  {
    DecodeVerdictFields(probability, diagnosis, map[]);
    assert map[] + VerdictFields(probability, diagnosis) == VerdictFields(probability, diagnosis);
  }

  /**
   * A worked example of the unclamped scaling that `DecodeVerdict` states for every answer:
   * a probability of 1.4 reaches the result screen as 140.
   */
  lemma ProbabilityNotClamped(diagnosis: string)
    ensures DecodeVerdict(VerdictFields(1.4, diagnosis)).percentage == 140.0
  {
    DecodeVerdictFields(1.4, diagnosis, map[]);
    assert map[] + VerdictFields(1.4, diagnosis) == VerdictFields(1.4, diagnosis);
  }
}

=== FILE: json.dfy ===
/**
 * The JSON data model that `JSONSerialization` hands back as `Any`
 * and that `JSONEncoder`/`JSONDecoder` build and read. Only the values are modelled, not the text.
 */
module Json {

  datatype JsonValue =
    | Null
    | Boolean(b: bool)
    | Number(n: real)
    | Str(s: string)
    | Array(items: seq<JsonValue>)
    | Object(fields: map<string, JsonValue>)
}

=== FILE: result_view_model.dfy ===
/**
 * Saving a shown result under a patient name: the name is trimmed of whitespace and
 * newlines, an empty name becomes the placeholder title, and one record is appended.
 */
module DiagnosisResultViewModel {
  import opened DiagnosisRecords
  import DataManager

  /**
   * `CharacterSet.whitespacesAndNewlines` as ranges of code points: Unicode general category Z*
   * (space separators, line and paragraph separators), U+0009 through U+000D, and U+0085.
   */
  const WhitespaceRanges: seq<(int, int)> := [
    (0x09, 0x0D), (0x20, 0x20), (0x85, 0x85), (0xA0, 0xA0), (0x1680, 0x1680), (0x2000, 0x200A),
    (0x2028, 0x2029), (0x202F, 0x202F), (0x205F, 0x205F), (0x3000, 0x3000)]

  /** The code point lies in one of the ranges. */
  predicate InRanges(n: int, ranges: seq<(int, int)>) {
    ranges != [] && (ranges[0].0 <= n <= ranges[0].1 || InRanges(n, ranges[1..]))
  }

  predicate IsWhitespaceOrNewline(c: char) {
    InRanges(c as int, WhitespaceRanges)
  }

  /** Every character is whitespace or a newline (true of the empty string). */
  predicate AllWhitespace(s: string) {
    s == [] || (IsWhitespaceOrNewline(s[0]) && AllWhitespace(s[1..]))
  }

  lemma {:induction false} AllWhitespaceAppend(a: string, b: string)
    ensures AllWhitespace(a + b) <==> AllWhitespace(a) && AllWhitespace(b)
  {
    if a == [] {
      assert a + b == b;
    } else {
      assert (a + b)[0] == a[0];
      assert (a + b)[1..] == a[1..] + b;
      AllWhitespaceAppend(a[1..], b);
    }
  }

  /** Neither end of `t` is whitespace (vacuously true of the empty string). */
  predicate Unpadded(t: string) {
    t == [] || (!IsWhitespaceOrNewline(t[0]) && !IsWhitespaceOrNewline(t[|t| - 1]))
  }

  /** `t` is `s` with a whitespace prefix and a whitespace suffix removed, and nothing more to remove. */
  ghost predicate IsTrimOf(s: string, t: string) {
    exists i, j :: 0 <= i <= j <= |s| && t == s[i..j] && AllWhitespace(s[..i]) && AllWhitespace(s[j..]) && Unpadded(t)
  }

  /** Drops leading whitespace. */
  function TrimStart(s: string): (t: string)
    ensures |t| <= |s| && t == s[|s| - |t|..]
    ensures AllWhitespace(s[..|s| - |t|])
    ensures t == [] || !IsWhitespaceOrNewline(t[0])
  {
    if s != [] && IsWhitespaceOrNewline(s[0]) then
      var t := TrimStart(s[1..]);
      assert s[..|s| - |t|][1..] == s[1..][..|s[1..]| - |t|];
      t
    else
      assert s[..0] == [];
      s
  }

  /** Drops trailing whitespace. */
  function TrimEnd(s: string): (t: string)
    ensures |t| <= |s| && t == s[..|t|]
    ensures AllWhitespace(s[|t|..])
    ensures t == [] || !IsWhitespaceOrNewline(t[|t| - 1])
  {
    if s != [] && IsWhitespaceOrNewline(s[|s| - 1]) then
      var t := TrimEnd(s[..|s| - 1]);
      var last := [s[|s| - 1]];
      assert s[|t|..] == s[..|s| - 1][|t|..] + last;
      assert last[1..] == [];
      AllWhitespaceAppend(s[..|s| - 1][|t|..], last);
      t
    else
      assert s[|s|..] == [];
      s
  }

  /** `trimmingCharacters(in: .whitespacesAndNewlines)`. */
  function Trim(s: string): (t: string) {
    TrimEnd(TrimStart(s))
  }

  /** The trimmed string is a trim of the input in the sense of `IsTrimOf`. */
  lemma TrimIsTrimOf(s: string)
    ensures IsTrimOf(s, Trim(s))
  {
    var u := TrimStart(s);
    TrimmedBothEnds(s, u, TrimEnd(u));
  }

  /**
   * What `TrimStart` and then `TrimEnd` guarantee, stated without the functions themselves,
   * already makes the result a trim.
   */
  lemma TrimmedBothEnds(s: string, u: string, t: string)
    requires |u| <= |s| && u == s[|s| - |u|..] && AllWhitespace(s[..|s| - |u|])
    requires u == [] || !IsWhitespaceOrNewline(u[0])
    requires |t| <= |u| && t == u[..|t|] && AllWhitespace(u[|t|..])
    requires t == [] || !IsWhitespaceOrNewline(t[|t| - 1])
    ensures IsTrimOf(s, t)
  {
    var i := |s| - |u|;
    SuffixPrefix(s, u, t);
    assert t != [] ==> t[0] == u[0];
    IsTrimOfAt(s, t, i, i + |t|);
  }

  lemma IsTrimOfAt(s: string, t: string, i: nat, j: nat)
    requires i <= j <= |s| && t == s[i..j] && AllWhitespace(s[..i]) && AllWhitespace(s[j..]) && Unpadded(t)
    ensures IsTrimOf(s, t)
  {
  }

  /** Nothing is left to trim at either end. */
  lemma TrimUnpadded(s: string)
    ensures Unpadded(Trim(s))
  {
    var u := TrimStart(s);
    var t := TrimEnd(u);
    if t != [] {
      assert t[0] == u[0];
    }
  }

  /** A prefix `t` of a suffix `u` of `s` is a slice of `s`, followed in `s` by the rest of `u`. */
  lemma SuffixPrefix(s: string, u: string, t: string)
    requires |u| <= |s| && u == s[|s| - |u|..]
    requires |t| <= |u| && t == u[..|t|]
    ensures var i := |s| - |u|; s[i..i + |t|] == t && s[i + |t|..] == u[|t|..]
  {
  }

  /** Leading whitespace up to the first other character is exactly what `TrimStart` drops. */
  lemma {:induction false} TrimStartAt(s: string, i: nat)
    requires i <= |s| && AllWhitespace(s[..i])
    requires i == |s| || !IsWhitespaceOrNewline(s[i])
    ensures TrimStart(s) == s[i..]
  {
    if i > 0 {
      assert s[..i][0] == s[0];
      assert s[..i][1..] == s[1..][..i - 1];
      assert i - 1 < |s[1..]| ==> s[1..][i - 1] == s[i];
      TrimStartAt(s[1..], i - 1);
      assert s[1..][i - 1..] == s[i..];
    }
  }

  /** Trailing whitespace after the last other character is exactly what `TrimEnd` drops. */
  lemma {:induction false} TrimEndAt(s: string, j: nat)
    requires j <= |s| && AllWhitespace(s[j..])
    requires j == 0 || !IsWhitespaceOrNewline(s[j - 1])
    ensures TrimEnd(s) == s[..j]
    decreases |s| - j
  {
    if j < |s| {
      var front, last := s[..|s| - 1], [s[|s| - 1]];
      assert s[j..] == front[j..] + last;
      AllWhitespaceAppend(front[j..], last);
      assert last[0] == s[|s| - 1];
      assert j > 0 ==> front[j - 1] == s[j - 1];
      TrimEndAt(front, j);
      assert front[..j] == s[..j];
    } else {
      assert s[..j] == s;
    }
  }

  /** There is only one trim of a string, so `IsTrimOf` pins `Trim` down completely. */
  lemma TrimOfIsUnique(s: string, t: string)
    requires IsTrimOf(s, t)
    ensures t == Trim(s)
  {
    var i, j :| 0 <= i <= j <= |s| && t == s[i..j] && AllWhitespace(s[..i]) && AllWhitespace(s[j..]) && Unpadded(t);
    if i == j {
      BlankTrim(s, i, j);
    } else {
      NonBlankTrim(s, i, j);
    }
  }

  /** A string that is whitespace around an empty middle trims to nothing. */
  lemma BlankTrim(s: string, i: nat, j: nat)
    requires i <= j <= |s| && s[i..j] == [] && AllWhitespace(s[..i]) && AllWhitespace(s[j..])
    ensures Trim(s) == []
  {
    assert s[..i] + s[j..] == s;
    AllWhitespaceAppend(s[..i], s[j..]);
    assert s[..|s|] == s;
    TrimStartAt(s, |s|);
  }

  /** Whitespace around a non-empty unpadded middle trims to exactly that middle. */
  lemma NonBlankTrim(s: string, i: nat, j: nat)
    requires i < j <= |s| && AllWhitespace(s[..i]) && AllWhitespace(s[j..]) && Unpadded(s[i..j])
    ensures Trim(s) == s[i..j]
  {
    SliceOfSuffix(s, i, j);
    var u := s[i..];
    assert TrimStart(s) == u by {
      TrimStartAt(s, i);
    }
    assert TrimEnd(u) == s[i..j] by {
      TrimEndAt(u, j - i);
    }
  }

  /** How the slice `s[i..j]` and the rest of `s` sit inside the suffix `s[i..]`. */
  lemma SliceOfSuffix(s: string, i: nat, j: nat)
    requires i < j <= |s|
    ensures s[i] == s[i..j][0] && s[i..][j - i - 1] == s[i..j][j - i - 1]
    ensures s[i..][j - i..] == s[j..] && s[i..][..j - i] == s[i..j]
  {
  }

  /** Trimming a trimmed string changes nothing. */
  lemma TrimIdempotent(s: string)
    ensures Trim(Trim(s)) == Trim(s)
  {
    var t := Trim(s);
    TrimUnpadded(s);
    assert IsTrimOf(t, t) by {
      assert t[0..|t|] == t && t[..0] == [] && t[|t|..] == [];
    }
    TrimOfIsUnique(t, t);
  }

  /** The view model of the result screen: what the server said, kept unchanged. */
  datatype ResultViewModel = ResultViewModel(probability: real, diagnosis: string)

  /** The name a record is saved under: the trimmed input, or the placeholder when nothing is left. */
  function FinalName(patientName: string, placeholder: string): (name: string)
    ensures Trim(patientName) != [] ==> name == Trim(patientName)
    ensures Trim(patientName) == [] ==> name == placeholder
  {
    var trimmed := Trim(patientName);
    if |trimmed| == 0 then placeholder else trimmed
  }

  /**
   * `saveRecord(with:)`. `placeholder` is the localized "nobody" title and `now` the
   * current date; the record is appended to the store and the store saved.
   */
  function SaveRecord(
    vm: ResultViewModel, patientName: string, placeholder: string, now: real,
    store: DataManager.Store, codec: DataManager.Codec
  ): (t: DataManager.Store)
    ensures |t.diagnosisResults| == |store.diagnosisResults| + 1
    ensures t.diagnosisResults[..|store.diagnosisResults|] == store.diagnosisResults
    ensures var saved := t.diagnosisResults[|store.diagnosisResults|];
      && saved.patientName == FinalName(patientName, placeholder)
      && saved.date == now
      && saved.probability == vm.probability
      && saved.diagnosis == vm.diagnosis
    ensures codec.encode(t.diagnosisResults).Some? ==> DataManager.Persisted(t, codec)
    ensures codec.encode(t.diagnosisResults).None? ==> t.defaults == store.defaults
    ensures DataManager.OtherKeysKept(store.defaults, t.defaults)
  {
    var record := DiagnosisRecord(FinalName(patientName, placeholder), now, vm.probability, vm.diagnosis);
    DataManager.AddRecord(store, record, codec)
  }

  /** A name of only whitespace and newlines is saved as the placeholder. */
  lemma BlankNameGetsPlaceholder(patientName: string, placeholder: string)
    requires AllWhitespace(patientName)
    ensures FinalName(patientName, placeholder) == placeholder
  {
    assert patientName[..|patientName|] == patientName;
    TrimStartAt(patientName, |patientName|);
  }

  /** A name that is already trimmed and not empty is saved exactly as given. */
  lemma TrimmedNameKept(patientName: string, placeholder: string)
    requires patientName != [] && Unpadded(patientName)
    ensures FinalName(patientName, placeholder) == patientName
  {
    assert IsTrimOf(patientName, patientName) by {
      assert patientName[0..|patientName|] == patientName;
      assert patientName[..0] == [] && patientName[|patientName|..] == [];
    }
    TrimOfIsUnique(patientName, patientName);
  }
}

=== FILE: settings.dfy ===
/**
 * The settings screen's two preferences: the interface language, stored as a language
 * code, and the theme, stored as the selected segment index.
 */
module Settings {
  import opened Wrappers
  import opened UserDefaults

  const LanguageItems: seq<string> := ["Kazakh", "Russian", "English"]
  const LanguageCodes: seq<string> := ["kk", "ru", "en"]
  const SelectedLanguageKey: string := "selectedLanguageIndex"
  const SelectedThemeKey: string := "selectedThemeIndex"

  /** `firstIndex(of:)`. */
  function FirstIndex(xs: seq<string>, x: string): (r: Option<nat>)
    ensures r.Some? ==> r.value < |xs| && xs[r.value] == x && forall j :: 0 <= j < r.value ==> xs[j] != x
    ensures r.None? ==> x !in xs
  {
    if xs == [] then None
    else if xs[0] == x then Some(0)
    else match FirstIndex(xs[1..], x)
      case None => None
      case Some(i) => Some(i + 1)
  }

  /** The language control's starting segment: the saved code's position, or 0. */
  function InitialLanguageIndex(defaults: Defaults): (index: nat)
    ensures index < |LanguageItems|
    ensures StringFor(defaults, SelectedLanguageKey).None? ==> index == 0
    ensures StringFor(defaults, SelectedLanguageKey).Some? && StringFor(defaults, SelectedLanguageKey).value !in LanguageCodes
      ==> index == 0
    ensures StringFor(defaults, SelectedLanguageKey).Some? && StringFor(defaults, SelectedLanguageKey).value in LanguageCodes
      ==> LanguageCodes[index] == StringFor(defaults, SelectedLanguageKey).value
  {
    match StringFor(defaults, SelectedLanguageKey)
    case None => 0
    case Some(saved) =>
      match FirstIndex(LanguageCodes, saved)
      case None => 0
      case Some(index) => index
  }

  /** `languageChanged()`: stores the code of the selected segment. The index must name a segment. */
  function LanguageChanged(selectedIndex: int, defaults: Defaults): (d: Defaults)
    requires 0 <= selectedIndex < |LanguageCodes|
    ensures StringFor(d, SelectedLanguageKey) == Some(LanguageCodes[selectedIndex])
    ensures d - {SelectedLanguageKey} == defaults - {SelectedLanguageKey}
  {
    defaults[SelectedLanguageKey := StringValue(LanguageCodes[selectedIndex])]
  }

  /** Selecting a language and building the control again selects the same segment. */
  lemma LanguageRoundTrip(selectedIndex: int, defaults: Defaults)
    requires 0 <= selectedIndex < |LanguageCodes|
    ensures InitialLanguageIndex(LanguageChanged(selectedIndex, defaults)) == selectedIndex
  {
    var index := InitialLanguageIndex(LanguageChanged(selectedIndex, defaults));
    assert LanguageCodes[index] == LanguageCodes[selectedIndex];
  }

  datatype InterfaceStyle = Light | Dark

  /** The theme control's starting segment: the stored integer, 0 when none is stored. */
  function InitialThemeIndex(defaults: Defaults): (index: int)
    ensures SelectedThemeKey !in defaults ==> index == 0
    ensures SelectedThemeKey in defaults && defaults[SelectedThemeKey].IntValue? ==> index == defaults[SelectedThemeKey].i
  {
    IntegerFor(defaults, SelectedThemeKey)
  }

  /** Segment 0 is the light style, every other segment the dark one. */
  function StyleFor(selectedIndex: int): (style: InterfaceStyle)
    ensures style == Light <==> selectedIndex == 0
  {
    if selectedIndex == 0 then Light else Dark
  }

  /**
   * `themeChanged()`: stores the index, and applies the style when the view has a window
   * (`None` when there is none to apply it to).
   */
  function ThemeChanged(selectedIndex: int, defaults: Defaults, hasWindow: bool): (r: (Defaults, Option<InterfaceStyle>))
    ensures IntegerFor(r.0, SelectedThemeKey) == selectedIndex
    ensures r.0 - {SelectedThemeKey} == defaults - {SelectedThemeKey}
    ensures r.1.Some? <==> hasWindow
    ensures hasWindow ==> r.1 == Some(StyleFor(selectedIndex))
  {
    (defaults[SelectedThemeKey := IntValue(selectedIndex)], if hasWindow then Some(StyleFor(selectedIndex)) else None)
  }

  /** Selecting a theme and building the control again selects the same segment and style. */
  lemma ThemeRoundTrip(selectedIndex: int, defaults: Defaults, hasWindow: bool)
    ensures InitialThemeIndex(ThemeChanged(selectedIndex, defaults, hasWindow).0) == selectedIndex
  {
  }
}

=== FILE: user_defaults.dfy ===
/**
 * The key-value preference store (`UserDefaults.standard`) as a map, with the three
 * typed readers the application uses.
 */
module UserDefaults {
  import opened Wrappers
  import opened Utf8
  import Decimal

  datatype Value = StringValue(s: string) | IntValue(i: int) | DataValue(bytes: Bytes)

  type Defaults = map<string, Value>

  /** `data(forKey:)`: the stored bytes, if the key holds data. */
  function DataFor(defaults: Defaults, key: string): (r: Option<Bytes>)
    ensures r.Some? <==> key in defaults && defaults[key].DataValue?
  {
    if key in defaults && defaults[key].DataValue? then Some(defaults[key].bytes) else None
  }

  /** `string(forKey:)`: a stored string, or the decimal text of a stored number; nothing for data. */
  function StringFor(defaults: Defaults, key: string): (r: Option<string>)
    ensures r.Some? <==> key in defaults && !defaults[key].DataValue?
  {
    if key !in defaults then None
    else
      match defaults[key]
      case StringValue(s) => Some(s)
      case IntValue(i) => Some(Decimal.IntToString(i))
      case DataValue(_) => None
  }

  /** `integer(forKey:)`: a stored number, a stored string read as a decimal integer, otherwise 0. */
  function IntegerFor(defaults: Defaults, key: string): int {
    if key !in defaults then 0
    else
      match defaults[key]
      case IntValue(i) => i
      case StringValue(s) => Decimal.ParseInt(s).GetOr(0)
      case DataValue(_) => 0
  }

  /** What is written under a key is what each reader returns for it. */
  lemma ReadYourWrites(defaults: Defaults, key: string, s: string, i: int, bytes: Bytes)
    ensures StringFor(defaults[key := StringValue(s)], key) == Some(s)
    ensures IntegerFor(defaults[key := IntValue(i)], key) == i
    ensures DataFor(defaults[key := DataValue(bytes)], key) == Some(bytes)
  {
  }

  /** A write under one key leaves every reader of every other key as it was. */
  lemma OtherKeysUnchanged(defaults: Defaults, key: string, other: string, v: Value)
    requires other != key
    ensures StringFor(defaults[key := v], other) == StringFor(defaults, other)
    ensures IntegerFor(defaults[key := v], other) == IntegerFor(defaults, other)
    ensures DataFor(defaults[key := v], other) == DataFor(defaults, other)
  {
  }
}

=== FILE: utf8.dfy ===
/**
 * UTF-8, the byte encoding Swift's `String.utf8` view and `Data(s.utf8)` produce.
 * A Dafny `char` is a Unicode scalar value, exactly what Swift strings are made of,
 * so every string has one encoding and `Decode` recovers it.
 */
module Utf8 {
  import opened Wrappers

  type Byte = b: int | 0 <= b < 256
  type Bytes = seq<Byte>

  /** Continuation bytes carry six payload bits under the prefix 10xxxxxx. */
  predicate IsContinuation(b: Byte) {
    0x80 <= b < 0xC0
  }

  /** The one-to-four byte encoding of a single scalar value. */
  function EncodeScalar(c: char): (bs: Bytes)
    ensures 1 <= |bs| <= 4
    ensures |bs| == 1 <==> c as int < 0x80
    ensures |bs| == 1 ==> bs[0] == c as int
    ensures forall i :: 1 <= i < |bs| ==> IsContinuation(bs[i])
  {
    var n := c as int;
    if n < 0x80 then
      [n]
    else if n < 0x800 then
      [0xC0 + n / 64, 0x80 + n % 64]
    else if n < 0x10000 then
      [0xE0 + n / 4096, 0x80 + (n / 64) % 64, 0x80 + n % 64]
    else
      [0xF0 + n / 262144, 0x80 + (n / 4096) % 64, 0x80 + (n / 64) % 64, 0x80 + n % 64]
  }

  /** The encoding of a string: its scalars' encodings, in order. */
  function Encode(s: string): (bs: Bytes)
    ensures |bs| >= |s|
  {
    if s == [] then [] else EncodeScalar(s[0]) + Encode(s[1..])
  }

  /** A scalar value that a `char` can hold: not above U+10FFFF and not a surrogate. */
  predicate IsScalar(n: int) {
    0 <= n < 0xD800 || 0xE000 <= n < 0x110000
  }

  /**
   * Decodes the first scalar of `bs`, returning it with the number of bytes it used.
   * Overlong forms, surrogates and values above U+10FFFF are refused.
   */
  function DecodeScalar(bs: Bytes): (r: Option<(char, nat)>)
    ensures r.Some? ==> 1 <= r.value.1 <= |bs| && r.value.1 <= 4
  {
    if |bs| == 0 then None
    else
    var b0: int, b1: int, b2: int, b3: int :=
      bs[0], if |bs| > 1 then bs[1] else 0, if |bs| > 2 then bs[2] else 0, if |bs| > 3 then bs[3] else 0;
    if bs[0] < 0x80 then Some((bs[0] as char, 1))
    else if 0xC0 <= bs[0] < 0xE0 then
      if |bs| < 2 || !IsContinuation(bs[1]) then None
      else
        var n := (b0 - 0xC0) * 64 + (b1 - 0x80);
        if n < 0x80 then None else Some((n as char, 2))
    else if 0xE0 <= bs[0] < 0xF0 then
      if |bs| < 3 || !IsContinuation(bs[1]) || !IsContinuation(bs[2]) then None
      else
        var n := (b0 - 0xE0) * 4096 + (b1 - 0x80) * 64 + (b2 - 0x80);
        if n < 0x800 || !IsScalar(n) then None else Some((n as char, 3))
    else if 0xF0 <= bs[0] < 0xF8 then
      if |bs| < 4 || !IsContinuation(bs[1]) || !IsContinuation(bs[2]) || !IsContinuation(bs[3]) then None
      else
        var n := (b0 - 0xF0) * 262144 + (b1 - 0x80) * 4096 + (b2 - 0x80) * 64 + (b3 - 0x80);
        if n < 0x10000 || !IsScalar(n) then None else Some((n as char, 4))
    else None
  }

  /** Decodes a whole byte sequence, or `None` if it is not well-formed UTF-8. */
  function Decode(bs: Bytes): Option<string>
    decreases |bs|
  {
    if bs == [] then Some([])
    else
      match DecodeScalar(bs)
      case None => None
      case Some((c, k)) =>
        match Decode(bs[k..])
        case None => None
        case Some(rest) => Some([c] + rest)
  }

  /** Decoding the encoding of one scalar, whatever follows it, gives back that scalar. */
  lemma DecodeEncodeScalar(c: char, rest: Bytes)
    ensures DecodeScalar(EncodeScalar(c) + rest) == Some((c, |EncodeScalar(c)|))
  {
    var n := c as int;
    if n < 0x80 {
    } else if n < 0x800 {
      DecodeTwoBytes(c, rest);
    } else if n < 0x10000 {
      DecodeThreeBytes(c, rest);
    } else {
      DecodeFourBytes(c, rest);
    }
  }

  /** Splitting a number into base-64 digits and putting it back together is the identity. */
  lemma SixBitDigits(n: nat)
    ensures n / 4096 == (n / 64) / 64
    ensures n / 262144 == (n / 4096) / 64
    ensures n == (n / 64) * 64 + n % 64
    ensures n == (n / 4096) * 4096 + ((n / 64) % 64) * 64 + n % 64
    ensures n == (n / 262144) * 262144 + ((n / 4096) % 64) * 4096 + ((n / 64) % 64) * 64 + n % 64
  {
    var a := n / 64;
    var b := a / 64;
    assert n == a * 64 + n % 64;
    assert a == b * 64 + a % 64;
    assert n == b * 4096 + (a % 64) * 64 + n % 64;
    assert b == n / 4096;
    var d := b / 64;
    assert b == d * 64 + b % 64;
    assert n == d * 262144 + (b % 64) * 4096 + (a % 64) * 64 + n % 64;
    assert d == n / 262144;
  }

  lemma DecodeTwoBytes(c: char, rest: Bytes)
    requires 0x80 <= c as int < 0x800
    ensures DecodeScalar(EncodeScalar(c) + rest) == Some((c, 2))
  {
    var n := c as int;
    SixBitDigits(n);
    var bs := EncodeScalar(c) + rest;
    assert bs[0] == 0xC0 + n / 64 && bs[1] == 0x80 + n % 64;
  }

  lemma DecodeThreeBytes(c: char, rest: Bytes)
    requires 0x800 <= c as int < 0x10000
    ensures DecodeScalar(EncodeScalar(c) + rest) == Some((c, 3))
  {
    var n := c as int;
    SixBitDigits(n);
    var bs := EncodeScalar(c) + rest;
    assert bs[0] == 0xE0 + n / 4096 && bs[1] == 0x80 + (n / 64) % 64 && bs[2] == 0x80 + n % 64;
  }

  lemma DecodeFourBytes(c: char, rest: Bytes)
    requires 0x10000 <= c as int
    ensures DecodeScalar(EncodeScalar(c) + rest) == Some((c, 4))
  {
    var n := c as int;
    SixBitDigits(n);
    var bs := EncodeScalar(c) + rest;
    assert bs[0] == 0xF0 + n / 262144 && bs[1] == 0x80 + (n / 4096) % 64;
    assert bs[2] == 0x80 + (n / 64) % 64 && bs[3] == 0x80 + n % 64;
  }

  /** UTF-8 round trip: every string is recovered from its encoding. */
  lemma {:induction false} DecodeEncode(s: string)
    ensures Decode(Encode(s)) == Some(s)
  {
    if s != [] {
      var head := EncodeScalar(s[0]);
      DecodeEncodeScalar(s[0], Encode(s[1..]));
      assert Encode(s)[|head|..] == Encode(s[1..]);
      DecodeEncode(s[1..]);
      assert [s[0]] + s[1..] == s;
    }
  }

  /** Encoding distributes over concatenation. */
  lemma {:induction false} EncodeConcat(a: string, b: string)
    ensures Encode(a + b) == Encode(a) + Encode(b)
  {
    if a != [] {
      assert (a + b)[0] == a[0];
      assert (a + b)[1..] == a[1..] + b;
      EncodeConcat(a[1..], b);
      calc {
        Encode(a + b);
        EncodeScalar(a[0]) + Encode(a[1..] + b);
        EncodeScalar(a[0]) + (Encode(a[1..]) + Encode(b));
        Encode(a) + Encode(b);
      }
    } else {
      assert a + b == b;
    }
  }

  /** Distinct strings have distinct encodings. */
  lemma EncodeInjective(a: string, b: string)
    requires Encode(a) == Encode(b)
    ensures a == b
  {
    DecodeEncode(a);
    DecodeEncode(b);
  }

  predicate IsAscii(s: string) {
    forall i :: 0 <= i < |s| ==> s[i] as int < 0x80
  }

  /** An ASCII string encodes byte for byte: one byte per character, holding its code. */
  lemma {:induction false} EncodeAscii(s: string)
    requires IsAscii(s)
    ensures |Encode(s)| == |s|
    ensures forall i :: 0 <= i < |s| ==> Encode(s)[i] == s[i] as int
  {
    if s != [] {
      assert IsAscii(s[1..]) by {
        forall i | 0 <= i < |s[1..]| ensures s[1..][i] as int < 0x80 {
          assert s[1..][i] == s[i + 1];
        }
      }
      EncodeAscii(s[1..]);
    }
  }
}

=== FILE: wrappers.dfy ===
/** Optional values and success/failure results, shared by every module of the model. */
module Wrappers {

  /** A value that may be absent (Swift's `Optional`). */
  datatype Option<+T> = None | Some(value: T) {

    /** The wrapped value, or `default` when absent (Swift's `??`). */
    function GetOr(default: T): T {
      match this
      case Some(v) => v
      case None => default
    }
  }

  /** The outcome of an operation that can fail (Swift's `Result<Success, Failure>`). */
  datatype Result<+R, +E> = Success(value: R) | Failure(error: E)
}
